=== FILE: README.md ===
# WebRTC signalling: a Dafny model

This project models the signalling core of a small WebRTC demo. Two browser
endpoints, one sender and one or more receivers, negotiate a peer connection.
They exchange session descriptions and connectivity candidates through a relay.
The model covers the following components:

- **Relay** (`server.js`), module `Relay`. The relay keeps a registry of
  connected sockets and elects the sender by last-syn-wins. It checks each
  `sig` message in three ordered steps and forwards it with a relay-stamped
  `from`. Each handler is a pure transition from a state to a new state and the
  list of events it emits.
- **Browser signalling session** (`public/js/signaling.js`), module
  `BrowserSignaling`. It covers:
  - the request/acknowledgement correlator (`send` and the `onAck` closure);
  - the Offline/Connecting/Online lifecycle (`connect`, `disconnect`, `_setState`);
  - the inbound `sig` handler, which acknowledges a message and then dispatches it.
- **Negotiation endpoint** (`public/js/endpoint.js`), module `Negotiation`. It
  covers:
  - the `Endpoint` class: offer and answer creation, trickle and batch candidate
    delivery, and description routing by type and role;
  - the page functions `onConnectionStateChange` and `onAction`.

  The peer connection belongs to the host. Every call on it is returned as an
  effect, and its callbacks are the inputs of the handlers.
- **Go signalling client** (`pion/signaling.go`), module `GoSignaling`. It
  covers:
  - `Send`, with its message-id counter and callback registry;
  - the `42["evt",json]` frame;
  - the split of an inbound frame by `^([0-9]*)(.*)$`;
  - one pass of the read loop, as a step function.
- **PCM packing** (`pion/main.go`, `toByteArray`), module `Pcm`. It packs
  signed 16-bit samples into little-endian bytes.
- **Manual copy-paste pages** (`js/server.js`, `js/client.js`), modules
  `CopyPaste`, `ManualServer`, `ManualClient` and `ManualExchange`. They cover
  candidate buffering, flushing the buffer to the output field, and dispatch of
  an entered value by kind.

Module `Common` holds the values that the components share:

- optional values;
- the opaque description and candidate payloads;
- the routed `sig` record;
- the log of peer-connection calls.

The model follows the code as written, including these behaviours:

- The relay refuses a `sig` from an unregistered socket with the reason "not sync'd".
- The browser never removes an entry from its pending map.
- The peer's acknowledgement echoes the lower-case `msgid` field, which no sender writes.
- Nothing calls `_sendCandidates`.
- `disconnect` never clears the socket, so a later `connect` is always refused.
- When any record whose `isSender` is set disconnects, the relay clears `senderId`.

## Model

| member | source | states |
|---|---|---|
| `Relay.OnConnection` | server.js:25-29 | A connection adds exactly one record, for its own id, with `isSender` false. Other records and `senderId` are untouched. |
| `Relay.OnDisconnect` | server.js:31-38 | The record is deleted. `senderId` is cleared exactly when that record claimed the sender role, even if `senderId` names another socket. An unregistered id changes nothing. |
| `Relay.OnSyn` | server.js:41-71 | A syn sets the record's role. A sender syn takes over `senderId` (last syn wins). A receiver syn leaves `senderId` alone. There is always exactly one `syn-ack`: "not registered" for an unknown socket, otherwise success with the current `senderId`. The `msgId` is echoed and the key set is unchanged. |
| `Relay.OnSig` | server.js:74-107 | Checks run in order: "not sync'd", then the missing-`to` reason, then "peer not found". A failure is one `sig-ack` to the sender only, echoing `msgId`. Success is one forward to the addressee with `from` stamped as the sender's id. A `to` naming a member that every plain object inherits (such as "toString") passes the lookup, and the handler then throws before emitting anything. For an object payload, that is the only case in which it throws. Whenever the handler completes, the state is unchanged and exactly one event is emitted. |
| `Relay.OnSigChecked` | server.js:94-102 | The corrected handler looks up only registered ids. It always emits exactly one event: a forward exactly when the addressee is registered, and "peer not found" for every other `to`. |
| `Relay.CheckedDiffersOnlyOnInherited` | server.js:94-106 | The handler as written throws exactly on a `sig` whose `to` is an inherited member name with no registered socket. On every other `sig` it completes exactly as the corrected handler does. |
| `Relay.InheritedPeerThrows` | server.js:94-106 | A registered socket's `sig` to "toString" makes the handler as written throw, while the corrected one answers "peer not found" with the message's id. |
| `Relay.RegistryFollowsConnections` | server.js:22-107 | After any trace, the registry's keys are exactly those that connections and disconnections alone determine. |
| `Relay.LastSenderSynWins` | server.js:52-61 | After a registered socket's sender syn, it remains `senderId` until another sender syn or a disconnection. |
| `Relay.TwoRecordsClaimSender` | server.js:52-61 | A superseded sender keeps `isSender`, so two records can claim the role at once. |
| `Relay.SupersededSenderLeavingClearsSender` | server.js:31-38 | When the superseded sender leaves, `senderId` is cleared although the current sender is still connected. |
| `Relay.ResyncedSenderLeavingKeepsStaleSender` | server.js:31-61 | A sender that syncs again as a receiver and then leaves keeps `senderId` naming it, although it is no longer registered. |
| `Relay.PeerBecomesDeliverable` | server.js:94-106 | A `sig` to an absent peer whose id is not an inherited member name fails with "peer not found". Once the peer connects, the same message is forwarded to it. |
| `Relay.DisconnectedPeerNotFound` | server.js:94-102 | A `sig` to a peer that just disconnected fails with "peer not found". |
| `BrowserSignaling.StampRoundTrip` | public/js/signaling.js:130-132 | Stamping adds only the id. The stored snapshot gives back the caller's payload and carries the id it was stored under. |
| `BrowserSignaling.FreshIsValid` | public/js/signaling.js:26-33 | A new session is Offline, has id counter 0, has no pending entries, and satisfies the id invariant. |
| `BrowserSignaling.Send` | public/js/signaling.js:128-137 | `send` takes the next id and records `{snapshot, promise}` under it, leaving other entries untouched. The id invariant is kept. The stamped message is emitted only when a socket exists. |
| `BrowserSignaling.OnAck` | public/js/signaling.js:40-60 | An ack with no entry is ignored. A failure rejects with the reason and the stored snapshot. A success resolves with the ack. The entry is never removed. The `syn` of `connect`, once resolved, records the sender id and notifies Connecting or Offline to Online. |
| `BrowserSignaling.Connect` | public/js/signaling.js:62-119 | With a socket already present, `connect` rejects with "already has socket" and changes nothing. Otherwise it notifies a change to Connecting and sends `syn` with the local role under the next id. The pending entries gain exactly that id, every earlier entry is kept as it was, and the sender id is unchanged. |
| `BrowserSignaling.Disconnect` | public/js/signaling.js:121-126 | The session always goes Offline and notifies `{from, to}`. The socket object stays, and pending entries stay. |
| `BrowserSignaling.NoReconnectAfterDisconnect` | public/js/signaling.js:62-64 | After a connect and a disconnect, every later `connect` is refused. |
| `BrowserSignaling.OnSigEvent` | public/js/signaling.js:80-109 | The handler acknowledges to `ev.from`, echoing `ev.msgid`. It dispatches `description` to `onSDPEntered(body, from)` and `candidate` to `onCandidateReceived(body)`, and drops other types. Without an endpoint it sends a failed `ack` and dispatches nothing. |
| `BrowserSignaling.PeerAckCarriesNoId` | public/js/signaling.js:94-98 | The ack that a peer returns for a relayed `sig` carries no id, so it settles no pending request. |
| `BrowserSignaling.HandshakeGoesOnline` | public/js/signaling.js:111-118 | A fresh `connect` sends `syn` with id 1. The relay's `syn-ack` brings the session Online with the relay's sender id, which is the session's own id for a sender. |
| `BrowserSignaling.SendAllKeepsEntries` | public/js/signaling.js:128-137 | A batch of sends advances the counter by the batch size, keeps earlier entries, adds only the new ids, and keeps the id invariant. |
| `BrowserSignaling.SendAllStampsInOrder` | public/js/signaling.js:130-134 | Request i of a batch is stored under id `last + i + 1`, with its own snapshot. |
| `BrowserSignaling.AcksKeepSnapshots` | public/js/signaling.js:40-60 | Any sequence of acks, in any order, keeps every entry's id and snapshot. |
| `BrowserSignaling.AckedBatchKeepsRequest` | public/js/signaling.js:128-137 | After a batch of sends and any acks, the entry under request i's id holds request i's own stamped snapshot. |
| `BrowserSignaling.AckFindsItsOwnRequest` | public/js/signaling.js:43-57 | After a batch of sends and any acks, a failure ack for request i's id rejects with request i's own snapshot, or finds that request already settled. |
| `Negotiation.NewConnectionOf` | public/js/endpoint.js:86-101 | Each attempt gets a brand-new connection object, and `_state` takes its initial ICE state. The candidate buffer and peer are kept. |
| `Negotiation.Start` | public/js/endpoint.js:57-77 | `start` is a no-op for the sender. A receiver gets a new connection and an offer request with audio receive on and video receive off. |
| `Negotiation.Close` | public/js/endpoint.js:79-84 | `close` does nothing without a connection and otherwise closes it. The endpoint's fields are unchanged. |
| `Negotiation.OnIceConnectionStateChange` | public/js/endpoint.js:92-99 | The handler notifies `{from: previous _state, to}`, and `_state` becomes the connection's state. |
| `Negotiation.OnOfferCreated` | public/js/endpoint.js:133-156 | The offer is set locally. In trickle mode it is sent at once to the elected sender. In batch mode nothing is sent. |
| `Negotiation.OnAnswerCreated` | public/js/endpoint.js:158-181 | The answer is set locally. In trickle mode it is sent at once to the recorded peer. In batch mode nothing is sent. |
| `Negotiation.OnIceCandidate` | public/js/endpoint.js:190-225 | Trickle: one `candidate` message per candidate and none for the end marker. Batch: the candidate is appended to the buffer, and the end marker sends one `description` carrying the local description. Both use the role-based addressing. |
| `Negotiation.SendCandidates` | public/js/endpoint.js:227-249 | The buffer is drained front to back, with one `candidate` message per element, to the peer. The buffer ends empty, and an empty buffer sends nothing. |
| `Negotiation.OnSDPReceived` | public/js/endpoint.js:103-131 | Sender: new connection, every track added, set-remote, create-answer. With no audio source the handler throws after the new connection. Receiver: set-remote on the current connection, or nothing when there is none. |
| `Negotiation.OnSDPEntered` | public/js/endpoint.js:251-272 | Any description with a type records its author as the peer. Offer, answer and pranswer go on to `_onSDPReceived`. A body without a type changes nothing. |
| `Negotiation.OnCandidateReceived` | public/js/endpoint.js:274-280 | The candidate goes to the current connection, or nowhere when there is none. |
| `Negotiation.BatchGathering` | public/js/endpoint.js:203-224 | Over a whole gathering in batch mode, every candidate is buffered in order. The only messages are one description per end marker. |
| `Negotiation.TrickleGathering` | public/js/endpoint.js:191-202 | Over a whole gathering in trickle mode, the endpoint is untouched and each candidate produces exactly its own message, in order. |
| `Negotiation.BatchSendsNoCandidate` | public/js/endpoint.js:203-224 | Over any gathering in batch mode, every effect is a `description` send. No `candidate` message is ever sent. |
| `Negotiation.BatchNegotiation` | public/js/endpoint.js:57-280 | In batch mode, a fresh receiver builds a connection and requests an audio-only offer. It sets the offer locally and sends it to the elected sender when gathering ends. The sender records the receiver as its peer, builds a connection with its tracks, applies the offer and answers. It sets the answer locally and sends it to the receiver when its own gathering ends. The receiver applies the answer, adds incoming candidates to its connection, and can close that connection. |
| `Negotiation.PageButton` | public/js/endpoint.js:316-318 | A sender's button starts disabled. |
| `Negotiation.SenderButtonLockedUntilUp` | public/js/endpoint.js:316-349 | A sender's button, as the page sets it up, stays disabled through any run of connection states until one of them is connected, completed or failed. |
| `Negotiation.OnConnectionStateChange` | public/js/endpoint.js:320-349 | The state text is shown. The button is enabled exactly for connected, completed or failed; for disconnected or closed on a receiver; and for any other state except checking when it was enabled before. `checking` labels it "Disconnect" and disconnected or closed label it "Connect". |
| `Negotiation.ActionFor` | public/js/endpoint.js:351-368 | A click starts an attempt exactly for a receiver in "", disconnected or closed. It closes exactly in connected, completed or failed. |
| `Negotiation.OnAction` | public/js/endpoint.js:351-368 | A click runs `start`, `close` or nothing, as `ActionFor` says. A sender's click never starts anything. |
| `Negotiation.ReceiverFirstClick` | public/js/endpoint.js:57-77 | A receiver's first click requests an audio-only offer on a new connection. Once `checking` arrives, the button is locked and clicks do nothing. |
| `GoSignaling.NewClient` | pion/signaling.go:143-150 | A new client has no callbacks and id counter 0, so every callback sits under an issued id from the start. |
| `GoSignaling.Send` | pion/signaling.go:318-356 | A syn or signal always takes the next id. Its callback is stored only when marshal and write both succeed. Otherwise it is called at once, with the marshal error if marshalling failed and with the write error if not. The written frame is `42["syn"/"sig",json]`. Any other message is refused through the callback without taking an id. |
| `GoSignaling.DigitRun` | pion/signaling.go:188 | The result is the length of the maximal leading run of decimal digits. |
| `GoSignaling.SplitPacket` | pion/signaling.go:188-199 | The expression matches exactly when the message has no line feed. Its groups are the maximal digit prefix and the rest, and they concatenate back to the message. |
| `GoSignaling.FrameSplitsAsEvent` | pion/signaling.go:329 | The frame `42["evt",json]` for an event name and JSON text without a line feed splits into packet type "42" and the event array. |
| `GoSignaling.HandleAck` | pion/signaling.go:243-283 | A `syn-ack` first records the sender id, successful or not. The callback under the ack's id is removed and called once, with nil or with "syn failed: " or "sig failed: " plus the reason. An unknown id panics. |
| `GoSignaling.Step` | pion/signaling.go:199-304 | An open packet records the session id and sends the syn. A `syn-ack` and a `sig-ack` settle callbacks. A `sig` is handed to the signal callback. Every other packet or event changes nothing. |
| `GoSignaling.OnFrame` | pion/signaling.go:192-199 | A frame with a line feed does not match the expression, and reading its packet type panics. Any other frame is handled by its digit prefix and its rest. |
| `GoSignaling.OtherPacketsIgnored` | pion/signaling.go:223-232 | Close, ping, pong, the empty `40` message and ack packets change nothing. |
| `GoSignaling.SigAckCallsBackOnce` | pion/signaling.go:265-283 | The `sig-ack` for a stored id calls exactly its callback once and restores the registry. A second ack for that id panics. |
| `GoSignaling.OpenThenSynAck` | pion/signaling.go:200-221 | An open packet writes the syn frame with the local role under the next id. Its `syn-ack` records the sender id and completes the connect callback. |
| `Pcm.Uint16` | pion/main.go:22 | The result lies in 0 to 65535 and is the sample modulo 2^16. |
| `Pcm.SampleRoundTrip` | pion/main.go:22 | Reading a sample's byte pair as signed little-endian gives the sample back. |
| `Pcm.ToByteArray` | pion/main.go:15-26 | When `2*len(buf) > len(bytes)` the result is 0 and the size error, and nothing is written. Otherwise the result is `2*len(buf)`, each sample fills bytes 2i (low) and 2i+1 (high), later bytes are unchanged, and every pair decodes back to its sample. |
| `CopyPaste.Collect` | js/server.js:79-82 | Each candidate event, null included, is appended to the buffer. |
| `CopyPaste.Flush` | js/server.js:110-113 | A non-empty buffer is moved whole into the output field and emptied. An empty one leaves the output as it was. |
| `CopyPaste.CollectThenFlush` | js/client.js:69-72 | After any run of candidate events, the buffer holds them in arrival order, and the next flush outputs exactly them. |
| `CopyPaste.Paste` | js/server.js:96-97 | An empty field does not decode. A candidate batch decodes as the list of its items, with null for the end marker. A description decodes as itself. |
| `CopyPaste.AddCandidates` | js/server.js:102-108 | There is one `addIceCandidate` per entered item, in order. |
| `ManualServer.MaybeCreateStream` | js/server.js:12-51 | The first successful capture starts the call: a new connection, then every track added. Later attempts, and attempts without capture support, do nothing. |
| `ManualServer.CallStartsOnce` | js/server.js:12-15 | Across any number of `canplay` events, a connection is created exactly once if a stream was captured and never otherwise. |
| `ManualServer.OnIceCandidate` | js/server.js:79-82 | Every candidate event, null included, is buffered in order. |
| `ManualServer.OnAnswerCreated` | js/server.js:66-77 | The answer is set locally and shown in the output field. |
| `ManualServer.OnSDPEntered` | js/server.js:91-127 | An undecodable input changes nothing. Otherwise the output is cleared first. A list adds each item and flushes, or throws at the first item without a connection. An empty list always just flushes. An offer calls set-remote then create-answer. Anything else makes no call. |
| `ManualServer.AnswersPastedOffer` | js/server.js:53-77 | With a captured stream, a pasted offer is applied and answered, and the answer then appears in the output. |
| `ManualClient.Call` | js/client.js:12-33 | The page creates its connection and requests an offer with audio receive on and video receive off. |
| `ManualClient.OnOfferCreated` | js/client.js:49-60 | The offer is set locally and shown in the output field. |
| `ManualClient.OnIceCandidate` | js/client.js:69-72 | Every candidate event, null included, is buffered in order. |
| `ManualClient.OnSDPReceived` | js/client.js:35-47 | The answer is applied, then a non-empty buffer is flushed to the output. |
| `ManualClient.OnSDPEntered` | js/client.js:74-106 | An undecodable input changes nothing. Otherwise the output is cleared first. A list adds each item and flushes. An answer or pranswer is applied and flushes. Anything else, an offer included, makes no call. |
| `ManualExchange.GatheredCandidatesCrossOver` | js/client.js:35-47 | Candidates the offering page gathered are shown once the answer is pasted. Pasting that output into the answering page adds each of them there, in order. |
| `ManualExchange.OfferAnsweredAcrossPages` | js/client.js:12-106 | The offering page creates an audio-only offer, sets it locally and shows it. Pasting it into the answering page, whose call has started, applies it and asks for an answer. That answer is set locally and shown. Pasting it back into the offering page applies it as the remote description and leaves the field blank. |
| `ManualExchange.WrongDirectionIgnored` | js/client.js:94-101 | The offering page ignores a pasted offer, and the answering page ignores a pasted answer. |

## Left out

- JSON encoding and decoding, base64, and `JSON.stringify` snapshots are not
  modelled. A snapshot is the stamped message itself. Go's `json.Marshal`
  is the parameter `marshal`, and the decoding of an inbound frame is the
  parameter `decode`.
- The socket, the websocket dial and write, the read goroutine, `sync.Map`,
  and `main()` are not modelled. Write errors are a parameter, and the read
  loop is one step per frame.
- The peer connection, media capture (`captureStream`, `setUpStream`), track
  events, the DOM, and audio playback are not modelled. The peer connection
  is a log of calls, and descriptions and candidates are opaque.
- `pion/rtc.go` is not part of this model.
- Express static serving, `/ping` and `server.listen` are not modelled.
- The page orchestration `onStart`, `onSigStateChange` and `onSigOffline` in
  endpoint.js only set status text or call `connect` and `disconnect`, so
  they are not modelled separately.
- `onIceStateChange` and `onTrack` in the copy-paste pages only log or attach
  media, so they are not modelled.
- The relay's connection time comes from the caller as `now`.
- The model does not distinguish a missing `senderId` from a null one.
- The flag `trickle` is a parameter, although the page never sets it to true.
- The ICE state of a new connection is taken to be "new".
- The relay registers no handler for the peer's `sig-ack` or `ack`, so those
  acknowledgements reach nobody. `PeerAckCarriesNoId` shows that such an ack
  would match nothing even if it were delivered.
- Some behaviour of the code may be unexpected. The model keeps it as written:
  - The relay answers "not sync'd" for a `sig` from an unregistered socket
    (server.js:77-83). Its `syn` handler answers "not registered" instead.
  - A sender that syncs again as a receiver and then disconnects leaves
    `senderId` naming a socket that is no longer registered
    (server.js:31-61).
  - The browser never removes an acknowledged entry from its pending map
    (public/js/signaling.js:40-60).
  - Disconnecting does not fail the pending requests
    (public/js/signaling.js:121-126).
  - Batch mode never sends a candidate batch, because nothing calls
    `_sendCandidates` (public/js/endpoint.js:227-249).
  - Inbound descriptions are routed only by type
    (public/js/endpoint.js:251-272). A role mismatch is only reported through
    `console.assert`, which is not modelled.
- Relay.OnSig: the `Threw` outcome ends the model's account of that event.
  What the runtime does after an uncaught error is not modelled, because it
  depends on the socket library and the runtime. Most likely the relay
  process exits and every client is dropped.
- Relay.OnSig, Relay.OnSyn: event payloads are taken to be objects. A `sig`
  with a missing or null payload throws when the handler reads `ev.to`
  (server.js:85), or `ev.msgId` for an unregistered socket (server.js:81).
  A `syn` without a payload throws on `ev.msgId` or `ev.isSender`
  (server.js:48, 52). Those throws are not modelled. Like the inherited-name
  throw, they are uncaught.
- Socket ids are taken never to equal a member name that plain objects
  inherit. The relay's own registration lookups by `socket.id` are modelled
  as plain membership tests.
- GoSignaling.HandleAck: an ack for an unknown id is modelled as the
  `Panicked` result, not as a precondition. Any undecodable event payload
  is one `Panicked` or `Fatal` result, whose message text is not the
  runtime's.
- GoSignaling.Send: the model treats a send as complete before any frame is
  read. In the code, the callback is stored only after the write returns
  (pion/signaling.go:330-335 and 347-352). A `Signal` is sent from the main
  goroutine while the read goroutine handles acks. If the relay's ack is
  handled before the store, the lookup fails and the read goroutine panics
  with "SendCallback is missing" (pion/signaling.go:271-274), and the
  callback is never called. This interleaving is not represented, so
  `GoSignaling.SigAckCallsBackOnce` holds only for a send that completes
  before its ack is read.
- GoSignaling.Send: the Go message id is an `int64`; the model's counter is
  unbounded and does not wrap.
- BrowserSignaling.Send: without a socket the promise rejects. The model
  records the pending entry and reports that nothing was emitted, but it does
  not represent the rejection as an outcome.
- Pcm.ToByteArray: it returns the updated byte sequence instead of writing
  through the caller's slice. The written contents are fully specified.

## Findings

| source | as written | input that shows it | evidently intended | confidence | as-written member | corrected member |
|---|---|---|---|---|---|---|
| server.js:94-106 | `clients[ev.to]` on a plain object also finds the members every object inherits. For such a `to`, `peer` is a function and `peer.socket.emit` throws a TypeError, so the sender gets no `sig-ack`. Nothing catches the error and the relay installs no handler for uncaught errors, so it most likely ends the relay process and drops every client | a registered socket sends `sig` with `to` "toString" | answer "peer not found", as for any other id with no registered socket | medium; not executed | `Relay.InheritedPeerThrows` | `Relay.OnSigChecked` |

The traces in `Relay` (`Relay.Apply`) use the corrected handler. Wherever the
handler as written completes, it leaves the registry as the corrected one
does. The traces therefore describe the relay up to its first throw.

=== FILE: common.dfy ===
/** Values shared by every component of the signalling model: optional values,
    the opaque negotiation payloads carried in `sig` messages, the routed
    `sig` record itself, and the log of calls made on a peer connection.

    Session descriptions and connectivity candidates are never interpreted by
    the signalling code; they are modelled as opaque records whose only
    observable part is the "type" property of a description. */
module Common {

  datatype Option<+T> = None | Some(value: T)

  /** A session description object. `kind` is its "type" property, or None when
      the object has no such property. */
  datatype Description = Description(kind: Option<string>, sdp: string)

  /** A local or remote connectivity candidate (opaque). */
  datatype Candidate = Candidate(line: string)

  /** Whatever a `sig` message carries in its `body` field. */
  datatype Body =
    | DescBody(desc: Description)
    | CandBody(cand: Candidate)
    | NullBody
    | OtherBody(text: string)

  /** The "type" property of a body, when it has one (`hasOwnProperty("type")`).
      Only description objects carry one. */
  function TypeProperty(b: Body): (r: Option<string>)
    ensures r.Some? ==> b.DescBody? && b.desc.kind == r
  {
    if b.DescBody? then b.desc.kind else None
  }

  /** JavaScript truthiness of an optional string field: missing and "" are falsy. */
  predicate Truthy(o: Option<string>)
  {
    o.Some? && o.value != ""
  }

  /** The routed negotiation message `{type, to, from, body, msgId}`.
      `msgid` is the lower-case key that the browser's inbound handler reads;
      no sender in the system writes it, so it is None on every message that
      a client builds. */
  datatype Sig = Sig(
    kind: string,
    to: Option<string>,
    from: Option<string>,
    body: Body,
    msgId: Option<int>,
    msgid: Option<int>)

  /** The payload a negotiation endpoint hands to its correlator:
      `{type, to, body}`; the correlator adds `msgId`. */
  datatype Outgoing = Outgoing(kind: string, to: Option<string>, body: Body)

  /** One call on the host's peer-connection capability. */
  datatype PcCall =
    | NewConnection
    | CreateOffer(offerToReceiveAudio: bool, offerToReceiveVideo: bool)
    | CreateAnswer
    | SetLocalDescription(desc: Body)
    | SetRemoteDescription(desc: Body)
    | AddTrack(track: string)
    | AddIceCandidate(cand: Body)
    | ClosePc
}

=== FILE: correlator.dfy ===
/** The browser's signalling session (public/js/signaling.js): the
    request/acknowledgement correlator behind `send` and the `onAck` closure,
    the Offline/Connecting/Online lifecycle of `connect`/`disconnect`, and the
    inbound `sig` handler that acknowledges and dispatches routed messages.

    A promise is represented by its pending entry: `settled` records whether
    it has already been resolved or rejected, because a JavaScript promise
    ignores every settlement after the first. */
module BrowserSignaling {
  import opened Common
  import Relay

  datatype SigState = Offline | Connecting | Online

  /** `_socket`: null, or a socket object (open, or closed by `disconnect`). */
  datatype SocketStatus = NoSocket | Open | Closed

  /** What a caller hands to `send`: the `syn` or the `sig` payload. */
  datatype Request = SynRequest(name: string, isSender: bool) | SigRequest(out: Outgoing)

  /** A request after `send` stamped its `msgId`; also the snapshot
      (`JSON.stringify(ev)`) kept in the pending entry. */
  datatype Message = SynMessage(name: string, isSender: bool, msgId: int) | SigMessage(sig: Sig)

  function MessageId(m: Message): Option<int>
  {
    match m
    case SynMessage(_, _, id) => Some(id)
    case SigMessage(sig) => sig.msgId
  }

  /** `ev.msgId = id` on the caller's payload. */
  function Stamp(req: Request, id: int): (m: Message)
    ensures MessageId(m) == Some(id)
  {
    match req
    case SynRequest(name, isSender) => SynMessage(name, isSender, id)
    case SigRequest(out) => SigMessage(Sig(out.kind, out.to, None, out.body, Some(id), None))
  }

  /** The caller's payload recovered from a stamped message. */
  function Unstamp(m: Message): Request
  {
    match m
    case SynMessage(name, isSender, _) => SynRequest(name, isSender)
    case SigMessage(sig) => SigRequest(Outgoing(sig.kind, sig.to, sig.body))
  }

  /** Stamping adds the id and nothing else: the snapshot determines the
      request it was made from. */
  lemma StampRoundTrip(req: Request, id: int)
    ensures Unstamp(Stamp(req, id)) == req
    ensures MessageId(Stamp(req, id)) == Some(id)
  {
  }

  /** What runs when a pending promise resolves: the `syn` sent by `connect`
      records the sender id and goes Online; every other caller only logs. */
  datatype Continuation = ThenOnline | ThenLog

  /** An entry of `_msgs`: `{sent, promise}`. */
  datatype Pending = Pending(sent: Message, cont: Continuation, settled: bool)

  datatype Session = Session(
    state: SigState,
    socket: SocketStatus,
    lastMsgId: int,
    msgs: map<int, Pending>,
    senderId: Option<string>)

  /** `{from, to}` passed to `onSigStateChange`. */
  datatype StateChange = StateChange(from: SigState, to: SigState)

  /** A freshly constructed `Signaling`. */
  const Fresh := Session(Offline, NoSocket, 0, map[], None)

  /** Every pending id was issued by this session (1..lastMsgId) and is the id
      stamped into its own snapshot. */
  predicate Valid(s: Session)
  {
    && s.lastMsgId >= 0
    && forall k :: k in s.msgs ==> 1 <= k <= s.lastMsgId && MessageId(s.msgs[k].sent) == Some(k)
  }

  lemma FreshIsValid()
    ensures Valid(Fresh) && Fresh.state == Offline && Fresh.lastMsgId == 0 && Fresh.msgs == map[]
  {
  }

  datatype Sending = Sending(session: Session, emitted: Option<Message>)

  /** `send`: takes the next id, records the pending entry, then emits. With no
      socket the emit throws inside the promise executor: the entry is already
      recorded but nothing goes out and the promise rejects. */
  function Send(s: Session, req: Request, cont: Continuation): (r: Sending)
    ensures r.session.lastMsgId == s.lastMsgId + 1
    ensures r.session.msgs.Keys == s.msgs.Keys + {s.lastMsgId + 1}
    ensures r.session.msgs[s.lastMsgId + 1] == Pending(Stamp(req, s.lastMsgId + 1), cont, false)
    ensures forall k :: k in s.msgs && k != s.lastMsgId + 1 ==> r.session.msgs[k] == s.msgs[k]
    ensures Valid(s) ==> s.lastMsgId + 1 !in s.msgs && Valid(r.session)
    ensures r.session.state == s.state && r.session.socket == s.socket && r.session.senderId == s.senderId
    ensures r.emitted.Some? <==> !s.socket.NoSocket?
    ensures r.emitted.Some? ==> r.emitted.value == Stamp(req, s.lastMsgId + 1)
  {
    var id := s.lastMsgId + 1;
    var m := Stamp(req, id);
    var s' := s.(lastMsgId := id, msgs := s.msgs[id := Pending(m, cont, false)]);
    Sending(s', if s.socket.NoSocket? then None else Some(m))
  }

  /** A `syn-ack` or `sig-ack` as the correlator sees it. */
  datatype Ack = Ack(success: bool, reason: Option<string>, senderId: Option<string>, msgId: Option<int>)

  /** What the caller of `send` observes. */
  datatype AckOutcome =
    | Unmatched
    | Resolved(ack: Ack)
    | Rejected(reason: Option<string>, sent: Message)
    | AlreadySettled

  datatype Acked = Acked(session: Session, outcome: AckOutcome, changes: seq<StateChange>)

  predicate Matches(s: Session, ack: Ack)
  {
    ack.msgId.Some? && ack.msgId.value in s.msgs
  }

  /** `onAck`: looks the entry up by `msgId`, never removes it, and settles its
      promise; resolving the `syn` of `connect` records the sender id and goes
      Online. */
  function OnAck(s: Session, ack: Ack): (r: Acked)
    ensures r.session.msgs.Keys == s.msgs.Keys
    ensures forall k :: k in s.msgs ==>
      r.session.msgs[k].sent == s.msgs[k].sent && r.session.msgs[k].cont == s.msgs[k].cont
    ensures r.session.lastMsgId == s.lastMsgId && r.session.socket == s.socket
    ensures Valid(s) ==> Valid(r.session)
    ensures !Matches(s, ack) ==> r == Acked(s, Unmatched, [])
    ensures Matches(s, ack) && s.msgs[ack.msgId.value].settled ==> r == Acked(s, AlreadySettled, [])
    ensures Matches(s, ack) && !s.msgs[ack.msgId.value].settled ==>
      && r.session.msgs[ack.msgId.value].settled
      && (forall k :: k in s.msgs && k != ack.msgId.value ==> r.session.msgs[k] == s.msgs[k])
      && (ack.success ==> r.outcome == Resolved(ack))
      && (!ack.success ==> r.outcome == Rejected(ack.reason, s.msgs[ack.msgId.value].sent))
    ensures Matches(s, ack) && !s.msgs[ack.msgId.value].settled && ack.success
            && s.msgs[ack.msgId.value].cont == ThenOnline ==>
      r.session.state == Online && r.session.senderId == ack.senderId
      && r.changes == [StateChange(s.state, Online)]
    ensures !(Matches(s, ack) && !s.msgs[ack.msgId.value].settled && ack.success
              && s.msgs[ack.msgId.value].cont == ThenOnline) ==>
      r.session.state == s.state && r.session.senderId == s.senderId && r.changes == []
  {
    if !Matches(s, ack) then Acked(s, Unmatched, [])
    else
      var id := ack.msgId.value;
      var p := s.msgs[id];
      if p.settled then Acked(s, AlreadySettled, [])
      else
        var s' := s.(msgs := s.msgs[id := p.(settled := true)]);
        if !ack.success then Acked(s', Rejected(ack.reason, p.sent), [])
        else if p.cont == ThenOnline then
          Acked(s'.(state := Online, senderId := ack.senderId), Resolved(ack), [StateChange(s.state, Online)])
        else Acked(s', Resolved(ack), [])
  }

  const AlreadyHasSocket := "already has socket"

  datatype Connection = Connection(
    session: Session,
    rejection: Option<string>,
    changes: seq<StateChange>,
    emitted: Option<Message>)

  /** `connect`: refused while any socket object exists; otherwise goes
      Connecting, opens a socket and sends `syn` with the local role. */
  function Connect(s: Session, isSender: bool): (r: Connection)
    ensures !s.socket.NoSocket? ==> r == Connection(s, Some(AlreadyHasSocket), [], None)
    ensures s.socket.NoSocket? ==>
      && r.rejection.None?
      && r.session.state == Connecting && r.session.socket == Open
      && r.changes == [StateChange(s.state, Connecting)]
      && r.emitted == Some(SynMessage("anonymous", isSender, s.lastMsgId + 1))
      && r.session.lastMsgId == s.lastMsgId + 1
      && s.lastMsgId + 1 in r.session.msgs
      && r.session.msgs[s.lastMsgId + 1] == Pending(r.emitted.value, ThenOnline, false)
      && r.session.msgs.Keys == s.msgs.Keys + {s.lastMsgId + 1}
      && (forall k :: k in s.msgs && k != s.lastMsgId + 1 ==> r.session.msgs[k] == s.msgs[k])
      && r.session.senderId == s.senderId
    ensures Valid(s) ==> Valid(r.session)
  {
    if !s.socket.NoSocket? then Connection(s, Some(AlreadyHasSocket), [], None)
    else
      var withSocket := s.(state := Connecting, socket := Open);
      var sent := Send(withSocket, SynRequest("anonymous", isSender), ThenOnline);
      Connection(sent.session, None, [StateChange(s.state, Connecting)], sent.emitted)
  }

  datatype Disconnection = Disconnection(session: Session, change: StateChange)

  /** `disconnect`: goes Offline and closes the socket, which stays set; with no
      socket, `close()` throws after the state change. Pending entries stay. */
  function Disconnect(s: Session): (r: Disconnection)
    ensures r.session.state == Offline && r.change == StateChange(s.state, Offline)
    ensures !r.session.socket.Open?
    ensures r.session.socket.NoSocket? <==> s.socket.NoSocket?
    ensures r.session.msgs == s.msgs && r.session.lastMsgId == s.lastMsgId
    ensures r.session.senderId == s.senderId
  {
    var socket := if s.socket.Open? then Closed else s.socket;
    Disconnection(s.(state := Offline, socket := socket), StateChange(s.state, Offline))
  }

  /** Because `disconnect` never forgets the socket, a session that once
      connected refuses every later `connect` and stays Offline. */
  lemma NoReconnectAfterDisconnect(s: Session, isSender: bool, again: bool)
    requires Connect(s, isSender).rejection.None?
    ensures var off := Disconnect(Connect(s, isSender).session).session;
            Connect(off, again) == Connection(off, Some(AlreadyHasSocket), [], None)
            && off.state == Offline
  {
  }

  /** The acknowledgement the peer's handler emits. */
  datatype PeerAck = PeerAck(evId: string, success: bool, reason: Option<string>, to: Option<string>, msgId: Option<int>)

  /** Where an inbound `sig` goes on the endpoint. */
  datatype Dispatch = ToSdpEntered(body: Body, from: Option<string>) | ToCandidateReceived(body: Body) | NotDispatched

  datatype Inbound = Inbound(ack: PeerAck, dispatch: Dispatch)

  const EndpointNotInitialized := "endpoint not initialized"

  /** The inbound `sig` handler: acknowledges to `ev.from` echoing the
      lower-case `ev.msgid`, then dispatches by `type`. Without an endpoint it
      emits a failed `ack` instead and dispatches nothing. */
  function OnSigEvent(ev: Sig, hasEndpoint: bool): (r: Inbound)
    ensures r.ack.to == ev.from && r.ack.msgId == ev.msgid
    ensures r.ack.success <==> hasEndpoint
    ensures hasEndpoint ==> r.ack.evId == "sig-ack" && r.ack.reason.None?
    ensures !hasEndpoint ==>
      r.ack == PeerAck("ack", false, Some(EndpointNotInitialized), ev.from, ev.msgid) && r.dispatch == NotDispatched
    ensures hasEndpoint && ev.kind == "description" ==> r.dispatch == ToSdpEntered(ev.body, ev.from)
    ensures hasEndpoint && ev.kind == "candidate" ==> r.dispatch == ToCandidateReceived(ev.body)
    ensures ev.kind != "description" && ev.kind != "candidate" ==> r.dispatch == NotDispatched
  {
    if !hasEndpoint then
      Inbound(PeerAck("ack", false, Some(EndpointNotInitialized), ev.from, ev.msgid), NotDispatched)
    else
      var ack := PeerAck("sig-ack", true, None, ev.from, ev.msgid);
      if ev.kind == "description" then Inbound(ack, ToSdpEntered(ev.body, ev.from))
      else if ev.kind == "candidate" then Inbound(ack, ToCandidateReceived(ev.body))
      else Inbound(ack, NotDispatched)
  }

  /** The peer's acknowledgement read as an ack event. */
  function PeerAckAsAck(p: PeerAck): Ack
  {
    Ack(p.success, p.reason, None, p.msgId)
  }

  /** A relay acknowledgement read as an ack event. */
  function RelayAckAsAck(o: Relay.Outbound): Ack
    requires !o.Forward?
  {
    match o
    case SynAck(success, senderId, reason, msgId) => Ack(success, reason, senderId, msgId)
    case SigAck(success, reason, msgId) => Ack(success, reason, None, msgId)
  }

  /** The peer echoes `msgid`, which no sender writes: the acknowledgement a
      peer produces for a `sig` sent through `send` and forwarded by the relay
      carries no id and could settle no pending request. */
  lemma PeerAckCarriesNoId(s: Session, out: Outgoing, relay: Relay.State, me: Relay.SocketId, hasEndpoint: bool)
    requires Send(s, SigRequest(out), ThenLog).emitted.Some?
    requires var m := Send(s, SigRequest(out), ThenLog).emitted.value;
             Relay.Deliverable(relay, me, m.sig)
    ensures var m := Send(s, SigRequest(out), ThenLog).emitted.value;
            var fwd := Relay.OnSig(relay, me, m.sig).step.emits[0].event.sig;
            var ack := OnSigEvent(fwd, hasEndpoint).ack;
            ack.msgId == None && ack.to == Some(me)
            && OnAck(Send(s, SigRequest(out), ThenLog).session, PeerAckAsAck(ack)).outcome == Unmatched
  {
  }

  /** The handshake end to end: a fresh `connect` sends `syn` with id 1; the
      relay's `syn-ack` for it brings the session Online with the sender id the
      relay holds after the syn. */
  lemma HandshakeGoesOnline(relay: Relay.State, me: Relay.SocketId, isSender: bool)
    requires me in relay.clients
    ensures var c := Connect(Fresh, isSender);
            var step := Relay.OnSyn(relay, me, Relay.SynEvent(isSender, Some(1)));
            c.emitted == Some(SynMessage("anonymous", isSender, 1))
            && |step.emits| == 1 && step.emits[0].target == me
            && var r := OnAck(c.session, RelayAckAsAck(step.emits[0].event));
               r.session.state == Online && r.session.senderId == step.state.senderId
               && r.changes == [StateChange(Connecting, Online)]
               && (isSender ==> r.session.senderId == Some(me))
  {
  }

  /** `send` applied to each request in turn. */
  function SendAll(s: Session, reqs: seq<Request>): Session
  {
    if reqs == [] then s else Send(SendAll(s, reqs[..|reqs| - 1]), reqs[|reqs| - 1], ThenLog).session
  }

  /** A batch of sends advances the id by the batch size, keeps a valid
      session valid, leaves earlier entries alone and adds only the new ids. */
  lemma {:induction false} SendAllKeepsEntries(s: Session, reqs: seq<Request>)
    requires Valid(s)
    ensures Valid(SendAll(s, reqs))
    ensures SendAll(s, reqs).lastMsgId == s.lastMsgId + |reqs|
    ensures forall k :: k in s.msgs ==> k in SendAll(s, reqs).msgs && SendAll(s, reqs).msgs[k] == s.msgs[k]
    ensures forall k :: k in SendAll(s, reqs).msgs ==> k in s.msgs || s.lastMsgId < k <= s.lastMsgId + |reqs|
  {
    if reqs != [] {
      SendAllKeepsEntries(s, reqs[..|reqs| - 1]);
    }
  }

  /** Request i of a batch gets id `lastMsgId + i + 1` and its own snapshot. */
  lemma {:induction false} SendAllStampsInOrder(s: Session, reqs: seq<Request>)
    ensures SendAll(s, reqs).lastMsgId == s.lastMsgId + |reqs|
    ensures forall k :: s.lastMsgId < k <= s.lastMsgId + |reqs| ==>
      k in SendAll(s, reqs).msgs && SendAll(s, reqs).msgs[k].sent == Stamp(reqs[k - s.lastMsgId - 1], k)
  {
    if reqs != [] {
      var n := |reqs| - 1;
      var init := reqs[..n];
      SendAllStampsInOrder(s, init);
      var t0 := SendAll(s, init);
      var t := SendAll(s, reqs);
      var newId := t0.lastMsgId + 1;
      assert t.msgs == t0.msgs[newId := Pending(Stamp(reqs[n], newId), ThenLog, false)];
      forall k | s.lastMsgId < k <= s.lastMsgId + |reqs|
        ensures k in t.msgs && t.msgs[k].sent == Stamp(reqs[k - s.lastMsgId - 1], k)
      {
        if k <= s.lastMsgId + n {
          assert init[k - s.lastMsgId - 1] == reqs[k - s.lastMsgId - 1];
        }
      }
    }
  }

  /** `onAck` applied to each acknowledgement in turn, in any order. */
  function AckAll(s: Session, acks: seq<Ack>): Session
  {
    if acks == [] then s else OnAck(AckAll(s, acks[..|acks| - 1]), acks[|acks| - 1]).session
  }

  /** However many acknowledgements arrive, in whatever order, every entry
      keeps its snapshot and its id. */
  lemma {:induction false} AcksKeepSnapshots(s: Session, acks: seq<Ack>)
    ensures var t := AckAll(s, acks);
            t.msgs.Keys == s.msgs.Keys && t.lastMsgId == s.lastMsgId
            && forall k :: k in s.msgs ==> t.msgs[k].sent == s.msgs[k].sent
  {
    if acks != [] {
      AcksKeepSnapshots(s, acks[..|acks| - 1]);
    }
  }

  /** After a batch of sends and any acknowledgements, the entry under the
      id of request i still holds request i's own snapshot. */
  lemma AckedBatchKeepsRequest(s: Session, reqs: seq<Request>, acks: seq<Ack>, i: int)
    requires 0 <= i < |reqs|
    ensures var t := AckAll(SendAll(s, reqs), acks);
            var k := s.lastMsgId + i + 1;
            k in t.msgs && t.msgs[k].sent == Stamp(reqs[i], k)
  {
    SendAllStampsInOrder(s, reqs);
    assert reqs[(s.lastMsgId + i + 1) - s.lastMsgId - 1] == reqs[i];
    AcksKeepSnapshots(SendAll(s, reqs), acks);
  }

  /** Correlation: after a batch of sends and any acknowledgements in any
      order, a failure acknowledgement for the id of request i either rejects
      with request i's own snapshot or finds that promise already settled. */
  lemma AckFindsItsOwnRequest(s: Session, reqs: seq<Request>, acks: seq<Ack>, i: int, a: Ack)
    requires Valid(s) && 0 <= i < |reqs|
    requires a.msgId == Some(s.lastMsgId + i + 1) && !a.success
    ensures var r := OnAck(AckAll(SendAll(s, reqs), acks), a).outcome;
            r == Rejected(a.reason, Stamp(reqs[i], s.lastMsgId + i + 1)) || r == AlreadySettled
  {
    AckedBatchKeepsRequest(s, reqs, acks, i);
  }
}

=== FILE: endpoint.dfy ===
/** The negotiation endpoint (public/js/endpoint.js): the `Endpoint` class
    that owns one peer connection per attempt, creates the offer or the
    answer, delivers its description and candidates either one by one
    (trickle) or after gathering ends (batch), and the page functions that
    map connectivity states to the action button.

    The peer connection is the host's: every call on it is an effect in the
    returned list, and its callbacks are the inputs of the handlers below. */
module Negotiation {
  import opened Common

  /** The page-level flags the endpoint reads: `isSender`, and `trickle`
      (initialised to false and never reassigned in the page). */
  datatype Config = Config(isSender: bool, trickle: bool)

  /** The endpoint instance. `pc` numbers the current connection object (None
      before the first `_createNewConnection`), `created` counts the objects
      built so far. */
  datatype Endpoint = Endpoint(
    candidates: seq<Candidate>,
    peerId: Option<string>,
    state: string,
    pc: Option<nat>,
    created: nat)

  /** What a handler does: a call on the current connection, a `sig.send` of
      a routed payload, or a `{from, to}` connection-state notification. */
  datatype Effect = Pc(call: PcCall) | Send(out: Outgoing) | StateChanged(from: string, to: string)

  datatype Reaction = Reaction(ep: Endpoint, effects: seq<Effect>)

  /** A newly constructed endpoint. */
  const Fresh := Endpoint([], None, "", None, 0)

  /** The ICE connection state of a freshly built connection object. */
  const NewState := "new"

  /** The current connection, if any, is one of the objects built so far. */
  predicate Valid(ep: Endpoint)
  {
    ep.pc.Some? ==> ep.pc.value < ep.created
  }

  /** `_createNewConnection`: a brand-new connection object becomes current and
      `_state` takes its initial ICE state; the candidate buffer is kept. */
  function NewConnectionOf(ep: Endpoint): (r: Endpoint)
    ensures Valid(ep) ==> Valid(r) && r.pc != ep.pc
    ensures r.pc.Some? && r.state == NewState
    ensures r.candidates == ep.candidates && r.peerId == ep.peerId
  {
    ep.(pc := Some(ep.created), created := ep.created + 1, state := NewState)
  }

  /** The addressing rule for outbound negotiation: a sender answers the peer
      that wrote to it, a receiver writes to the elected sender. */
  function Recipient(ep: Endpoint, cfg: Config, senderId: Option<string>): Option<string>
  {
    if cfg.isSender then ep.peerId else senderId
  }

  /** `start`: the sender never initiates; a receiver builds a fresh connection
      and asks it for an offer that receives audio but not video. */
  function Start(ep: Endpoint, cfg: Config): (r: Reaction)
    ensures cfg.isSender ==> r == Reaction(ep, [])
    ensures !cfg.isSender ==>
      && r.effects == [Pc(NewConnection), Pc(CreateOffer(true, false))]
      && r.ep.state == NewState && r.ep.pc.Some?
      && r.ep.candidates == ep.candidates && r.ep.peerId == ep.peerId
      && (Valid(ep) ==> Valid(r.ep) && r.ep.pc != ep.pc)
  {
    if cfg.isSender then Reaction(ep, [])
    else Reaction(NewConnectionOf(ep), [Pc(NewConnection), Pc(CreateOffer(true, false))])
  }

  /** `close`: closes the current connection if there is one; the object stays
      current and `_state` waits for the connection's own notification. */
  function Close(ep: Endpoint): (r: Reaction)
    ensures r.ep == ep
    ensures ep.pc.None? ==> r.effects == []
    ensures ep.pc.Some? ==> r.effects == [Pc(ClosePc)]
  {
    if ep.pc.None? then Reaction(ep, []) else Reaction(ep, [Pc(ClosePc)])
  }

  /** `oniceconnectionstatechange`: reports `{from: previous _state, to}` and
      adopts the connection's current state. */
  function OnIceConnectionStateChange(ep: Endpoint, current: string): (r: Reaction)
    ensures r.ep.state == current
    ensures r.ep.(state := ep.state) == ep
    ensures r.effects == [StateChanged(ep.state, current)]
  {
    Reaction(ep.(state := current), [StateChanged(ep.state, current)])
  }

  /** `_onCreateOfferSuccess`: sets the offer locally; in trickle mode sends it
      at once to the sender, in batch mode sends nothing yet. */
  function OnOfferCreated(ep: Endpoint, cfg: Config, senderId: Option<string>, desc: Body): (r: Reaction)
    ensures r.ep == ep
    ensures |r.effects| >= 1 && r.effects[0] == Pc(SetLocalDescription(desc))
    ensures cfg.trickle ==> r.effects[1..] == [Send(Outgoing("description", senderId, desc))]
    ensures !cfg.trickle ==> |r.effects| == 1
  {
    var sends := if cfg.trickle then [Send(Outgoing("description", senderId, desc))] else [];
    Reaction(ep, [Pc(SetLocalDescription(desc))] + sends)
  }

  /** `_onCreateAnswerSuccess`: sets the answer locally; in trickle mode sends
      it at once to the recorded peer. */
  function OnAnswerCreated(ep: Endpoint, cfg: Config, desc: Body): (r: Reaction)
    ensures r.ep == ep
    ensures |r.effects| >= 1 && r.effects[0] == Pc(SetLocalDescription(desc))
    ensures cfg.trickle ==> r.effects[1..] == [Send(Outgoing("description", ep.peerId, desc))]
    ensures !cfg.trickle ==> |r.effects| == 1
  {
    var sends := if cfg.trickle then [Send(Outgoing("description", ep.peerId, desc))] else [];
    Reaction(ep, [Pc(SetLocalDescription(desc))] + sends)
  }

  /** `_onIceCandidate`. Trickle: each candidate goes out on its own and the
      end marker (None) sends nothing. Batch: candidates are buffered and not
      sent; the end marker sends the connection's local description once. */
  function OnIceCandidate(ep: Endpoint, cfg: Config, senderId: Option<string>,
                          cand: Option<Candidate>, localDescription: Body): (r: Reaction)
    ensures r.ep.(candidates := ep.candidates) == ep
    ensures cfg.trickle ==> r.ep == ep
    ensures cfg.trickle && cand.Some? ==>
      r.effects == [Send(Outgoing("candidate", Recipient(ep, cfg, senderId), CandBody(cand.value)))]
    ensures cand.None? ==> r.ep == ep
    ensures cfg.trickle && cand.None? ==> r.effects == []
    ensures !cfg.trickle && cand.Some? ==> r.ep.candidates == ep.candidates + [cand.value] && r.effects == []
    ensures !cfg.trickle && cand.None? ==>
      r.effects == [Send(Outgoing("description", Recipient(ep, cfg, senderId), localDescription))]
  {
    var to := Recipient(ep, cfg, senderId);
    match cand
    case Some(c) =>
      if cfg.trickle then Reaction(ep, [Send(Outgoing("candidate", to, CandBody(c)))])
      else Reaction(ep.(candidates := ep.candidates + [c]), [])
    case None =>
      if cfg.trickle then Reaction(ep, [])
      else Reaction(ep, [Send(Outgoing("description", to, localDescription))])
  }

  /** `_sendCandidates` (never called by the page): drains the buffer front to
      back, one `candidate` message to the recorded peer per element. */
  method SendCandidates(ep: Endpoint) returns (r: Endpoint, effects: seq<Effect>)
    ensures r == ep.(candidates := [])
    ensures |effects| == |ep.candidates|
    ensures forall i :: 0 <= i < |ep.candidates| ==>
      effects[i] == Send(Outgoing("candidate", ep.peerId, CandBody(ep.candidates[i])))
  {
    var queue := ep.candidates;
    effects := [];
    while |queue| > 0
      invariant |effects| + |queue| == |ep.candidates|
      invariant queue == ep.candidates[|effects|..]
      invariant forall i :: 0 <= i < |effects| ==>
        effects[i] == Send(Outgoing("candidate", ep.peerId, CandBody(ep.candidates[i])))
    {
      var cand := queue[0];
      queue := queue[1..];
      effects := effects + [Send(Outgoing("candidate", ep.peerId, CandBody(cand)))];
    }
    r := ep.(candidates := queue);
  }

  /** One `addTrack` per track of the local audio source, in order. */
  function AddTracks(tracks: seq<string>): (r: seq<Effect>)
    ensures |r| == |tracks|
    ensures forall i :: 0 <= i < |tracks| ==> r[i] == Pc(AddTrack(tracks[i]))
  {
    seq(|tracks|, i requires 0 <= i < |tracks| => Pc(AddTrack(tracks[i])))
  }

  /** `_onSDPReceived`: the sender builds a new connection, attaches the audio
      source's tracks, sets the remote description and asks for an answer
      (with no audio source, reading its tracks throws after the new
      connection); a receiver only sets the remote description on its current
      connection (with none, the call throws). */
  function OnSDPReceived(ep: Endpoint, cfg: Config, desc: Body, source: Option<seq<string>>): (r: Reaction)
    ensures cfg.isSender ==> r.ep == NewConnectionOf(ep) && |r.effects| >= 1 && r.effects[0] == Pc(NewConnection)
    ensures cfg.isSender && source.Some? ==>
      r.effects == [Pc(NewConnection)] + AddTracks(source.value)
                   + [Pc(SetRemoteDescription(desc)), Pc(CreateAnswer)]
    ensures cfg.isSender && source.None? ==> r.effects == [Pc(NewConnection)]
    ensures !cfg.isSender ==> r.ep == ep
    ensures !cfg.isSender && ep.pc.Some? ==> r.effects == [Pc(SetRemoteDescription(desc))]
    ensures !cfg.isSender && ep.pc.None? ==> r.effects == []
  {
    if cfg.isSender then
      var ep' := NewConnectionOf(ep);
      match source
      case None => Reaction(ep', [Pc(NewConnection)])
      case Some(tracks) =>
        Reaction(ep', [Pc(NewConnection)] + AddTracks(tracks) + [Pc(SetRemoteDescription(desc)), Pc(CreateAnswer)])
    else if ep.pc.None? then Reaction(ep, [])
    else Reaction(ep, [Pc(SetRemoteDescription(desc))])
  }

  predicate IsNegotiationType(t: string)
  {
    t == "offer" || t == "answer" || t == "pranswer"
  }

  /** `onSDPEntered`: any description with a "type" records its author as the
      peer; offers, answers and provisional answers go on to `_onSDPReceived`
      whatever the local role; a body without a "type" changes nothing. */
  function OnSDPEntered(ep: Endpoint, cfg: Config, desc: Body, from: Option<string>, source: Option<seq<string>>): (r: Reaction)
    ensures TypeProperty(desc).None? ==> r == Reaction(ep, [])
    ensures TypeProperty(desc).Some? ==> r.ep.peerId == from
    ensures TypeProperty(desc).Some? && !IsNegotiationType(TypeProperty(desc).value) ==>
      r == Reaction(ep.(peerId := from), [])
    ensures TypeProperty(desc).Some? && IsNegotiationType(TypeProperty(desc).value) ==>
      r == OnSDPReceived(ep.(peerId := from), cfg, desc, source)
  {
    match TypeProperty(desc)
    case None => Reaction(ep, [])
    case Some(t) =>
      var ep' := ep.(peerId := from);
      if IsNegotiationType(t) then OnSDPReceived(ep', cfg, desc, source) else Reaction(ep', [])
  }

  /** `onCandidateReceived`: hands the candidate to the current connection
      (with none, the call throws and nothing happens). */
  function OnCandidateReceived(ep: Endpoint, cand: Body): (r: Reaction)
    ensures r.ep == ep
    ensures ep.pc.Some? ==> r.effects == [Pc(AddIceCandidate(cand))]
    ensures ep.pc.None? ==> r.effects == []
  {
    if ep.pc.None? then Reaction(ep, []) else Reaction(ep, [Pc(AddIceCandidate(cand))])
  }

  // ---------------------------------------------------------------------------
  // Candidate gathering over a whole attempt

  /** One `onicecandidate` callback: a candidate, or None for the end marker,
      with the connection's `localDescription` at that moment. */
  datatype IceEvent = IceEvent(cand: Option<Candidate>, localDescription: Body)

  /** `_onIceCandidate` applied to each callback in turn. */
  function Gather(ep: Endpoint, cfg: Config, senderId: Option<string>, evs: seq<IceEvent>): Reaction
  {
    if evs == [] then Reaction(ep, [])
    else
      var before := Gather(ep, cfg, senderId, evs[..|evs| - 1]);
      var last := evs[|evs| - 1];
      var step := OnIceCandidate(before.ep, cfg, senderId, last.cand, last.localDescription);
      Reaction(step.ep, before.effects + step.effects)
  }

  /** The non-null candidates of a gathering, in order. */
  function Gathered(evs: seq<IceEvent>): seq<Candidate>
  {
    if evs == [] then []
    else
      var last := evs[|evs| - 1];
      Gathered(evs[..|evs| - 1]) + (if last.cand.Some? then [last.cand.value] else [])
  }

  /** One `description` message per end marker, carrying the local description
      of that moment. */
  function DescriptionSends(to: Option<string>, evs: seq<IceEvent>): seq<Effect>
  {
    if evs == [] then []
    else
      var last := evs[|evs| - 1];
      DescriptionSends(to, evs[..|evs| - 1])
      + (if last.cand.None? then [Send(Outgoing("description", to, last.localDescription))] else [])
  }

  /** One `candidate` message per non-null candidate, in order. */
  function CandidateSends(to: Option<string>, evs: seq<IceEvent>): seq<Effect>
  {
    if evs == [] then []
    else
      var last := evs[|evs| - 1];
      CandidateSends(to, evs[..|evs| - 1])
      + (if last.cand.Some? then [Send(Outgoing("candidate", to, CandBody(last.cand.value)))] else [])
  }

  /** Batch mode: every candidate is buffered in order and none is sent; the
      only messages are one description per end marker. */
  lemma {:induction false} BatchGathering(ep: Endpoint, cfg: Config, senderId: Option<string>, evs: seq<IceEvent>)
    requires !cfg.trickle
    ensures Gather(ep, cfg, senderId, evs).ep == ep.(candidates := ep.candidates + Gathered(evs))
    ensures Gather(ep, cfg, senderId, evs).effects == DescriptionSends(Recipient(ep, cfg, senderId), evs)
  {
    if evs != [] {
      BatchGathering(ep, cfg, senderId, evs[..|evs| - 1]);
    }
  }

  /** Trickle mode: the endpoint's state is untouched and each candidate
      produces exactly its own message; the end marker produces none. */
  lemma {:induction false} TrickleGathering(ep: Endpoint, cfg: Config, senderId: Option<string>, evs: seq<IceEvent>)
    requires cfg.trickle
    ensures Gather(ep, cfg, senderId, evs).ep == ep
    ensures Gather(ep, cfg, senderId, evs).effects == CandidateSends(Recipient(ep, cfg, senderId), evs)
  {
    if evs != [] {
      TrickleGathering(ep, cfg, senderId, evs[..|evs| - 1]);
    }
  }

  /** Since nothing ever drains the buffer in batch mode, a whole batch
      gathering sends no `candidate` message at all: every effect is a
      `description` send. */
  lemma {:induction false} BatchSendsNoCandidate(ep: Endpoint, cfg: Config, senderId: Option<string>, evs: seq<IceEvent>)
    requires !cfg.trickle
    ensures forall e :: e in Gather(ep, cfg, senderId, evs).effects ==> e.Send? && e.out.kind == "description"
  {
    if evs != [] {
      BatchSendsNoCandidate(ep, cfg, senderId, evs[..|evs| - 1]);
    }
  }

  /** A whole batch-mode negotiation between a fresh receiver `r` and a sender
      that already knows nothing about it. The receiver's start builds a
      connection and requests an audio-only offer; the offer is set locally
      and sent to the elected sender only when gathering ends. The sender
      takes the offer as coming from `r`, builds its own connection with its
      tracks, applies the offer and answers; the answer is set locally and
      sent back to `r` when its gathering ends. The receiver applies the
      answer, adds the sender's candidates and can close the connection that
      its start built. */
  lemma BatchNegotiation(receiver: Endpoint, sender: Endpoint, r: string, senderId: Option<string>,
                         offer: Body, answer: Body, tracks: seq<string>, cand: Body)
    requires receiver == Fresh && sender.peerId.None?
    requires TypeProperty(offer) == Some("offer") && TypeProperty(answer) == Some("answer")
    ensures var rc := Config(false, false);
            var sc := Config(true, false);
            var start := Start(receiver, rc);
            && start.effects == [Pc(NewConnection), Pc(CreateOffer(true, false))]
            && OnOfferCreated(start.ep, rc, senderId, offer).effects == [Pc(SetLocalDescription(offer))]
            && OnIceCandidate(start.ep, rc, senderId, None, offer).effects
               == [Send(Outgoing("description", senderId, offer))]
            && (var entered := OnSDPEntered(sender, sc, offer, Some(r), Some(tracks));
                && entered.ep.peerId == Some(r)
                && entered.effects == [Pc(NewConnection)] + AddTracks(tracks)
                                      + [Pc(SetRemoteDescription(offer)), Pc(CreateAnswer)]
                && OnAnswerCreated(entered.ep, sc, answer).effects == [Pc(SetLocalDescription(answer))]
                && OnIceCandidate(entered.ep, sc, senderId, None, answer).effects
                   == [Send(Outgoing("description", Some(r), answer))])
            && OnSDPEntered(start.ep, rc, answer, senderId, None).effects == [Pc(SetRemoteDescription(answer))]
            && OnCandidateReceived(start.ep, cand).effects == [Pc(AddIceCandidate(cand))]
            && Close(start.ep).effects == [Pc(ClosePc)]
  {
  }

  // ---------------------------------------------------------------------------
  // The action button

  datatype Button = Button(disabled: bool, text: string)

  /** The connection-state text and the action button. */
  datatype Ui = Ui(connText: string, button: Button)

  /** The button as the page sets it up: a sender's is disabled. */
  function PageButton(html: Button, isSender: bool): (r: Button)
    ensures r.text == html.text
    ensures r.disabled <==> html.disabled || isSender
  {
    if isSender then html.(disabled := true) else html
  }

  predicate IsUp(state: string)
  {
    state == "connected" || state == "completed" || state == "failed"
  }

  predicate IsDown(state: string)
  {
    state == "disconnected" || state == "closed"
  }

  /** `onConnectionStateChange`: shows the new state; `checking` locks the
      button as "Disconnect", connected/completed/failed unlock it,
      disconnected/closed relabel it "Connect" and lock it only for a sender;
      any other state leaves the button alone. */
  function OnConnectionStateChange(ui: Ui, isSender: bool, to: string): (r: Ui)
    ensures r.connText == to
    ensures !r.button.disabled <==>
      IsUp(to) || (IsDown(to) && !isSender)
      || (to != "checking" && !IsUp(to) && !IsDown(to) && !ui.button.disabled)
    ensures r.button.text ==
      if to == "checking" then "Disconnect" else if IsDown(to) then "Connect" else ui.button.text
  {
    var b := ui.button;
    var b' :=
      if to == "checking" then Button(true, "Disconnect")
      else if IsUp(to) then b.(disabled := false)
      else if IsDown(to) then Button(isSender, "Connect")
      else b;
    Ui(to, b')
  }

  datatype UserAction = StartAttempt | CloseAttempt | Ignore

  /** What a click does in a given endpoint state: a receiver starts from the
      idle states, anyone closes from the up states. */
  function ActionFor(state: string, isSender: bool): (a: UserAction)
    ensures a == StartAttempt <==> !isSender && (state == "" || IsDown(state))
    ensures a == CloseAttempt <==> IsUp(state)
  {
    if state == "" || IsDown(state) then (if isSender then Ignore else StartAttempt)
    else if IsUp(state) then CloseAttempt
    else Ignore
  }

  /** `onAction`. */
  function OnAction(ep: Endpoint, cfg: Config): (r: Reaction)
    ensures ActionFor(ep.state, cfg.isSender) == StartAttempt ==> r == Start(ep, cfg)
    ensures ActionFor(ep.state, cfg.isSender) == CloseAttempt ==> r == Close(ep)
    ensures ActionFor(ep.state, cfg.isSender) == Ignore ==> r == Reaction(ep, [])
    ensures cfg.isSender ==> r.ep == ep && forall e :: e in r.effects ==> e == Pc(ClosePc)
  {
    match ActionFor(ep.state, cfg.isSender)
    case StartAttempt => Start(ep, cfg)
    case CloseAttempt => Close(ep)
    case Ignore => Reaction(ep, [])
  }

  /** The page's button after a run of connection-state notifications. */
  function ButtonAfter(ui: Ui, isSender: bool, states: seq<string>): Ui
  {
    if states == [] then ui
    else OnConnectionStateChange(ButtonAfter(ui, isSender, states[..|states| - 1]), isSender, states[|states| - 1])
  }

  /** A sender's button, set up disabled by the page, stays disabled through
      every notification until its connection first comes up. */
  lemma {:induction false} SenderButtonLockedUntilUp(html: Button, connText: string, states: seq<string>)
    requires forall i :: 0 <= i < |states| ==> !IsUp(states[i])
    ensures ButtonAfter(Ui(connText, PageButton(html, true)), true, states).button.disabled
  {
    if states != [] {
      SenderButtonLockedUntilUp(html, connText, states[..|states| - 1]);
    }
  }

  /** A receiver's first click on a fresh endpoint builds a connection and
      requests an audio-only offer; once the connection reports `checking`
      the button is locked and further clicks are ignored. */
  lemma ReceiverFirstClick(cfg: Config, ui: Ui)
    requires !cfg.isSender
    ensures var r := OnAction(Fresh, cfg);
            r.effects == [Pc(NewConnection), Pc(CreateOffer(true, false))]
            && r.ep.state == NewState
            && var c := OnIceConnectionStateChange(r.ep, "checking");
               c.effects == [StateChanged(NewState, "checking")]
               && OnAction(c.ep, cfg) == Reaction(c.ep, [])
               && OnConnectionStateChange(ui, cfg.isSender, "checking").button == Button(true, "Disconnect")
  {
  }
}

=== FILE: go_signaling.dfy ===
/** The Go signalling client (pion/signaling.go): `Send` with its message-id
    counter and callback registry, the socket.io text frame `42["evt",json]`,
    the split of an inbound frame into packet type and payload, and one pass
    of the read loop inside `Connect` as a step function.

    JSON encoding is a parameter (`marshal`) and decoding is represented by
    the already-decoded payload handed to `Step`; the websocket write is
    represented by its error result. */
module GoSignaling {
  import opened Common

  // socket.io packet types
  const OpenType := "0"
  const CloseType := "1"
  const PingType := "2"
  const PongType := "3"
  const MsgType := "4"
  const EmptyMsgType := "40"
  const CommonMsgType := "42"
  const AckType := "43"

  const UnknownMessage := "Unknown message to send"
  const SynFailed := "syn failed: "
  const SigFailed := "sig failed: "
  const CallbackMissing := "SendCallback is missing"

  /** A `SendCallback`: the connect callback passed by the read loop, or one
      supplied by a user of `Send`. */
  datatype Callback = OnConnected | UserCallback(tag: nat)

  /** A callback invoked with nil (None) or an error message. */
  datatype Invocation = Invocation(cb: Callback, err: Option<string>)

  /** `sigSyn`. */
  datatype SynMsg = SynMsg(msgId: int, name: string, isSender: bool)

  /** `Signal`. */
  datatype Signal = Signal(msgId: int, kind: string, to: string, from: string, body: Body)

  /** The dynamic type of what `Send` is given. */
  datatype GoMessage = SynOut(syn: SynMsg) | SignalOut(sig: Signal) | OtherOut(description: string)

  /** The `Signaling` context. `callbacks` is `sendCbs`. */
  datatype Client = Client(
    id: string,
    name: string,
    isSender: bool,
    senderId: string,
    lastMsgId: int,
    callbacks: map<int, Callback>)

  /** `New`. */
  function NewClient(name: string, isSender: bool): (c: Client)
    ensures c.lastMsgId == 0 && c.callbacks == map[] && c.name == name && c.isSender == isSender
    ensures Valid(c)
  {
    Client("", name, isSender, "", 0, map[])
  }

  /** Every stored callback sits under an id that `Send` has issued. */
  predicate Valid(c: Client)
  {
    c.lastMsgId >= 0 && forall k :: k in c.callbacks ==> 1 <= k <= c.lastMsgId
  }

  /** The result of `json.Marshal`. */
  datatype Marshalled = Json(text: string) | MarshalError(msg: string)

  /** The text frame `42["evt",json]`. */
  function Frame(evt: string, json: string): string
  {
    CommonMsgType + "[\"" + evt + "\"," + json + "]"
  }

  /** The message with `MsgID` set. */
  function WithId(msg: GoMessage, id: int): GoMessage
  {
    match msg
    case SynOut(s) => SynOut(s.(msgId := id))
    case SignalOut(s) => SignalOut(s.(msgId := id))
    case OtherOut(d) => msg
  }

  function EventName(msg: GoMessage): string
  {
    if msg.SynOut? then "syn" else "sig"
  }

  /** True when both the encoding and the write of the stamped message succeed. */
  predicate Delivered(msg: GoMessage, id: int, marshal: GoMessage -> Marshalled, writeErr: Option<string>)
  {
    marshal(WithId(msg, id)).Json? && writeErr.None?
  }

  datatype Sent = Sent(client: Client, written: Option<string>, calls: seq<Invocation>)

  /** `Send`. A `sigSyn` or `Signal` always takes the next id, even when it then
      fails; its callback is stored under that id only when both marshalling
      and writing succeed, and is otherwise called at once with the error. Any
      other message is refused through the callback without taking an id. */
  function Send(c: Client, msg: GoMessage, cb: Callback,
                marshal: GoMessage -> Marshalled, writeErr: Option<string>): (r: Sent)
    ensures msg.OtherOut? ==> r == Sent(c, None, [Invocation(cb, Some(UnknownMessage))])
    ensures !msg.OtherOut? ==>
      && r.client.lastMsgId == c.lastMsgId + 1
      && r.client.(lastMsgId := c.lastMsgId, callbacks := c.callbacks) == c
      && (Valid(c) ==> Valid(r.client))
    ensures !msg.OtherOut? && Delivered(msg, c.lastMsgId + 1, marshal, writeErr) ==>
      && r.client.callbacks == c.callbacks[c.lastMsgId + 1 := cb]
      && r.calls == []
    ensures !msg.OtherOut? && !Delivered(msg, c.lastMsgId + 1, marshal, writeErr) ==>
      && r.client.callbacks == c.callbacks
      && |r.calls| == 1 && r.calls[0].cb == cb && r.calls[0].err.Some?
    ensures !msg.OtherOut? && !Delivered(msg, c.lastMsgId + 1, marshal, writeErr) ==>
      r.calls[0].err == (if marshal(WithId(msg, c.lastMsgId + 1)).MarshalError?
                         then Some(marshal(WithId(msg, c.lastMsgId + 1)).msg)
                         else writeErr)
    ensures !msg.OtherOut? && marshal(WithId(msg, c.lastMsgId + 1)).Json? ==>
      r.written == Some(Frame(EventName(msg), marshal(WithId(msg, c.lastMsgId + 1)).text))
    ensures !msg.OtherOut? && marshal(WithId(msg, c.lastMsgId + 1)).MarshalError? ==> r.written.None?
  {
    if msg.OtherOut? then Sent(c, None, [Invocation(cb, Some(UnknownMessage))])
    else
      var id := c.lastMsgId + 1;
      var c' := c.(lastMsgId := id);
      match marshal(WithId(msg, id))
      case MarshalError(e) => Sent(c', None, [Invocation(cb, Some(e))])
      case Json(text) =>
        var frame := Frame(EventName(msg), text);
        if writeErr.Some? then Sent(c', Some(frame), [Invocation(cb, writeErr)])
        else Sent(c'.(callbacks := c.callbacks[id := cb]), Some(frame), [])
  }

  // ---------------------------------------------------------------------------
  // Splitting an inbound frame with ^([0-9]*)(.*)$

  predicate IsDigit(ch: char)
  {
    '0' <= ch <= '9'
  }

  /** Length of the leading run of decimal digits. */
  function DigitRun(m: string): (k: nat)
    ensures k <= |m|
    ensures forall i :: 0 <= i < k ==> IsDigit(m[i])
    ensures k < |m| ==> !IsDigit(m[k])
  {
    if |m| == 0 || !IsDigit(m[0]) then 0 else 1 + DigitRun(m[1..])
  }

  /** The two capture groups of `^([0-9]*)(.*)$`: the maximal leading digit run
      and the rest. `.` does not match a line feed and `$` only matches at the
      very end, so a message holding a line feed does not match at all. */
  function SplitPacket(m: string): (r: Option<(string, string)>)
    ensures r.None? <==> '\n' in m
    ensures r.Some? ==> r.value.0 + r.value.1 == m
    ensures r.Some? ==> forall i :: 0 <= i < |r.value.0| ==> IsDigit(r.value.0[i])
    ensures r.Some? && |r.value.1| > 0 ==> !IsDigit(r.value.1[0])
  {
    var k := DigitRun(m);
    if '\n' in m[k..] then None
    else
      assert m[..k] + m[k..] == m;
      assert '\n' !in m[..k] by {
        forall i | 0 <= i < k ensures m[..k][i] != '\n' { assert IsDigit(m[i]); }
      }
      Some((m[..k], m[k..]))
  }

  /** Every frame `Send` writes splits into packet type "42" and the event
      array, provided the event name and the JSON text hold no line feed
      (JSON encoding escapes control characters). */
  lemma FrameSplitsAsEvent(evt: string, json: string)
    requires '\n' !in evt && '\n' !in json
    ensures SplitPacket(Frame(evt, json)) == Some((CommonMsgType, "[\"" + evt + "\"," + json + "]"))
  {
    var m := Frame(evt, json);
    var rest := "[\"" + evt + "\"," + json + "]";
    assert m == CommonMsgType + rest;
    assert m[0] == '4' && m[1] == '2' && m[2] == '[';
    assert DigitRun(m[2..]) == 0;
    assert DigitRun(m[1..]) == 1 by { assert m[1..][1..] == m[2..]; }
    assert DigitRun(m) == 2;
    assert m[..2] == CommonMsgType;
    assert m[2..] == rest;
    assert '\n' !in rest by {
      forall i | 0 <= i < |rest| ensures rest[i] != '\n' {
        if i < 2 {
        } else if i < 2 + |evt| {
          assert rest[i] == evt[i - 2];
        } else if i < 2 + |evt| + 2 {
        } else if i < 2 + |evt| + 2 + |json| {
          assert rest[i] == json[i - 2 - |evt| - 2];
        }
      }
    }
  }

  // ---------------------------------------------------------------------------
  // One pass of the read loop

  /** A decoded event object. Fields the object lacks read as Go zero values,
      as `json.Unmarshal` leaves them. */
  datatype WireObject = WireObject(
    msgId: int, success: bool, reason: string, senderId: string,
    kind: string, to: string, from: string, body: Body)

  /** What the payload after the packet type decodes to: an open message, an
      event array `[evId, object]`, or something neither reads as. */
  datatype Payload = OpenPayload(sid: string) | EventArgs(evId: string, arg: WireObject) | Undecodable

  datatype StepResult =
    | Continue(client: Client, written: Option<string>, calls: seq<Invocation>, signaled: Option<Signal>)
    | Panicked(reason: string)
    | Fatal(reason: string)

  /** A `syn-ack` or `sig-ack`: a `syn-ack` first takes the sender id from the
      ack, successful or not; then the callback under the ack's id is removed
      and called with nil or the prefixed reason. An id with no callback panics. */
  function HandleAck(c: Client, ack: WireObject, isSyn: bool): (r: StepResult)
    ensures ack.msgId !in c.callbacks <==> r.Panicked?
    ensures r.Panicked? ==> r.reason == CallbackMissing
    ensures r.Continue? ==>
      && r.client.callbacks == c.callbacks - {ack.msgId}
      && r.client.senderId == (if isSyn then ack.senderId else c.senderId)
      && r.client.(senderId := c.senderId, callbacks := c.callbacks) == c
      && r.written.None? && r.signaled.None?
      && r.calls == [Invocation(c.callbacks[ack.msgId],
                                if ack.success then None
                                else Some((if isSyn then SynFailed else SigFailed) + ack.reason))]
  {
    var c' := if isSyn then c.(senderId := ack.senderId) else c;
    if ack.msgId !in c'.callbacks then Panicked(CallbackMissing)
    else
      var cb := c'.callbacks[ack.msgId];
      var err := if ack.success then None
                 else Some((if isSyn then SynFailed else SigFailed) + ack.reason);
      Continue(c'.(callbacks := c'.callbacks - {ack.msgId}), None, [Invocation(cb, err)], None)
  }

  /** The body of the read loop for one message of packet type `ptype`. An open
      packet records the session id and sends the syn; an event packet
      dispatches `syn-ack`, `sig-ack` and `sig`; every other type is only
      logged. */
  function Step(c: Client, ptype: string, payload: Payload,
                marshal: GoMessage -> Marshalled, writeErr: Option<string>): (r: StepResult)
    ensures ptype != OpenType && ptype != CommonMsgType ==> r == Continue(c, None, [], None)
    ensures ptype == OpenType && !payload.OpenPayload? ==> r.Fatal?
    ensures ptype == OpenType && payload.OpenPayload? ==>
      var sent := Send(c.(id := payload.sid), SynOut(SynMsg(0, c.name, c.isSender)), OnConnected, marshal, writeErr);
      && r == Continue(sent.client, sent.written, sent.calls, None)
      && r.client.id == payload.sid
      && r.client.lastMsgId == c.lastMsgId + 1
    ensures ptype == CommonMsgType && !payload.EventArgs? ==> r.Panicked?
    ensures ptype == CommonMsgType && payload.EventArgs? && payload.evId == "syn-ack" ==>
      r == HandleAck(c, payload.arg, true)
    ensures ptype == CommonMsgType && payload.EventArgs? && payload.evId == "sig-ack" ==>
      r == HandleAck(c, payload.arg, false)
    ensures ptype == CommonMsgType && payload.EventArgs? && payload.evId == "sig" ==>
      var a := payload.arg;
      r == Continue(c, None, [], Some(Signal(a.msgId, a.kind, a.to, a.from, a.body)))
    ensures ptype == CommonMsgType && payload.EventArgs?
            && payload.evId != "syn-ack" && payload.evId != "sig-ack" && payload.evId != "sig" ==>
      r == Continue(c, None, [], None)
  {
    if ptype == OpenType then
      match payload
      case OpenPayload(sid) =>
        var sent := Send(c.(id := sid), SynOut(SynMsg(0, c.name, c.isSender)), OnConnected, marshal, writeErr);
        Continue(sent.client, sent.written, sent.calls, None)
      case _ => Fatal("error: open message does not decode")
    else if ptype == CommonMsgType then
      match payload
      case EventArgs(evId, a) =>
        if evId == "syn-ack" then HandleAck(c, a, true)
        else if evId == "sig-ack" then HandleAck(c, a, false)
        else if evId == "sig" then Continue(c, None, [], Some(Signal(a.msgId, a.kind, a.to, a.from, a.body)))
        else Continue(c, None, [], None)
      case _ => Panicked("index out of range")
    else Continue(c, None, [], None)
  }

  /** One inbound frame: split by the regular expression, then handled by
      `Step` with the payload decoded by `decode`. A frame the expression does
      not match leaves `subs` nil, and reading its packet type panics. */
  function OnFrame(c: Client, m: string, decode: string -> Payload,
                   marshal: GoMessage -> Marshalled, writeErr: Option<string>): (r: StepResult)
    ensures '\n' in m ==> r == Panicked("index out of range")
    ensures '\n' !in m ==>
      r == Step(c, m[..DigitRun(m)], decode(m[DigitRun(m)..]), marshal, writeErr)
  {
    match SplitPacket(m)
    case None => Panicked("index out of range")
    case Some((ptype, rest)) => Step(c, ptype, decode(rest), marshal, writeErr)
  }

  /** A frame that is not an open or event packet (a ping, the empty `40`
      message, an ack packet) changes nothing, whatever its payload. */
  lemma OtherPacketsIgnored(c: Client, m: string, decode: string -> Payload,
                            marshal: GoMessage -> Marshalled, writeErr: Option<string>)
    requires '\n' !in m
    requires SplitPacket(m).Some? && SplitPacket(m).value.0 != OpenType && SplitPacket(m).value.0 != CommonMsgType
    ensures OnFrame(c, m, decode, marshal, writeErr) == Continue(c, None, [], None)
  {
  }

  /** Correlation: once `Send` has stored a callback, the `sig-ack` carrying its
      id calls exactly that callback, once, and the registry returns to what it
      was before the send; a second ack for the same id panics. */
  lemma SigAckCallsBackOnce(c: Client, msg: GoMessage, cb: Callback,
                            marshal: GoMessage -> Marshalled, ack: WireObject)
    requires Valid(c) && !msg.OtherOut? && Delivered(msg, c.lastMsgId + 1, marshal, None)
    requires ack.msgId == c.lastMsgId + 1
    ensures var sent := Send(c, msg, cb, marshal, None);
            var r := Step(sent.client, CommonMsgType, EventArgs("sig-ack", ack), marshal, None);
            && r.Continue?
            && r.calls == [Invocation(cb, if ack.success then None else Some(SigFailed + ack.reason))]
            && r.client.callbacks == c.callbacks
            && r.client.lastMsgId == c.lastMsgId + 1
            && Step(r.client, CommonMsgType, EventArgs("sig-ack", ack), marshal, None).Panicked?
  {
  }

  /** The syn handshake: an open packet sends a syn frame carrying the local
      role under the next id, and the `syn-ack` for that id records the
      sender id and completes the connect callback. */
  lemma OpenThenSynAck(c: Client, sid: string, marshal: GoMessage -> Marshalled, ack: WireObject)
    requires Valid(c)
    requires Delivered(SynOut(SynMsg(0, c.name, c.isSender)), c.lastMsgId + 1, marshal, None)
    requires ack.msgId == c.lastMsgId + 1
    ensures var afterOpen := Step(c, OpenType, OpenPayload(sid), marshal, None);
            && afterOpen.Continue? && afterOpen.calls == []
            && afterOpen.written == Some(Frame("syn", marshal(SynOut(SynMsg(c.lastMsgId + 1, c.name, c.isSender))).text))
            && var acked := Step(afterOpen.client, CommonMsgType, EventArgs("syn-ack", ack), marshal, None);
               && acked.Continue?
               && acked.client.senderId == ack.senderId && acked.client.id == sid
               && acked.calls == [Invocation(OnConnected, if ack.success then None else Some(SynFailed + ack.reason))]
  {
  }
}

=== FILE: manual.dfy ===
/** The copy-paste variant (js/server.js and js/client.js): two pages that
    exchange descriptions and candidate batches through text fields that a
    person copies from one page into the other. Base64 and JSON are left
    out: a text field holds the structured value it would encode. */
module CopyPaste {
  import opened Common

  /** The contents of the output field. */
  datatype Output =
    | Blank
    | DescriptionText(desc: Body)
    | CandidatesText(cands: seq<Option<Candidate>>)

  /** What the input field decodes to: a JSON array or a single value. */
  datatype Entered = EnteredList(items: seq<Body>) | EnteredObject(value: Body)

  /** The gathered-candidate buffer (`candidates`, where a None entry is the
      end-of-gathering null) together with the output field. */
  datatype Buffer = Buffer(candidates: seq<Option<Candidate>>, output: Output)

  const Empty := Buffer([], Blank)

  /** `onIceCandidate`: every event is buffered, the final null included. */
  function Collect(b: Buffer, cand: Option<Candidate>): (r: Buffer)
    ensures |r.candidates| == |b.candidates| + 1
    ensures r.candidates[..|b.candidates|] == b.candidates && r.candidates[|b.candidates|] == cand
    ensures r.output == b.output
  {
    b.(candidates := b.candidates + [cand])
  }

  /** The buffer after a run of candidate events. */
  function CollectAll(b: Buffer, cands: seq<Option<Candidate>>): Buffer
  {
    if cands == [] then b else Collect(CollectAll(b, cands[..|cands| - 1]), cands[|cands| - 1])
  }

  /** When the buffer is non-empty, its whole contents are written to the
      output field and the buffer is emptied; otherwise nothing changes. */
  function Flush(b: Buffer): (r: Buffer)
    ensures r.candidates == []
    ensures |b.candidates| > 0 ==> r.output == CandidatesText(b.candidates)
    ensures |b.candidates| == 0 ==> r.output == b.output
  {
    if |b.candidates| > 0 then Buffer([], CandidatesText(b.candidates)) else b
  }

  /** Every candidate event reaches the next flush, in the order it arrived,
      and the flush leaves an empty buffer. */
  lemma {:induction false} CollectThenFlush(b: Buffer, cands: seq<Option<Candidate>>)
    ensures CollectAll(b, cands).candidates == b.candidates + cands
    ensures CollectAll(b, cands).output == b.output
    ensures |b.candidates + cands| > 0 ==>
      Flush(CollectAll(b, cands)) == Buffer([], CandidatesText(b.candidates + cands))
  {
    if cands != [] {
      var init := cands[..|cands| - 1];
      CollectThenFlush(b, init);
      assert b.candidates + init + [cands[|cands| - 1]] == b.candidates + cands;
    }
  }

  /** The JSON value of a buffered candidate event: the candidate object, or
      null for the end-of-gathering event. */
  function AsBody(c: Option<Candidate>): (r: Body)
    ensures r.NullBody? <==> c.None?
    ensures c.Some? ==> r == CandBody(c.value)
  {
    match c
    case None => NullBody
    case Some(cand) => CandBody(cand)
  }

  /** Copying one page's output field into the other page's input field.
      An empty field does not decode (`JSON.parse("")` throws): None. */
  function Paste(out: Output): (r: Option<Entered>)
    ensures r.None? <==> out.Blank?
    ensures out.CandidatesText? ==>
      r == Some(EnteredList(seq(|out.cands|, i requires 0 <= i < |out.cands| => AsBody(out.cands[i]))))
    ensures out.DescriptionText? ==> r == Some(EnteredObject(out.desc))
  {
    match out
    case Blank => None
    case DescriptionText(d) => Some(EnteredObject(d))
    case CandidatesText(cs) => Some(EnteredList(seq(|cs|, i requires 0 <= i < |cs| => AsBody(cs[i]))))
  }

  /** One `addIceCandidate` per entered item, in order. */
  function AddCandidates(items: seq<Body>): (r: seq<PcCall>)
    ensures |r| == |items|
    ensures forall i :: 0 <= i < |items| ==> r[i] == AddIceCandidate(items[i])
  {
    seq(|items|, i requires 0 <= i < |items| => AddIceCandidate(items[i]))
  }
}

/** The answering page (js/server.js): captures a stream from the page's
    audio element once, then answers pasted offers and exchanges candidate
    batches. */
module ManualServer {
  import opened Common
  import opened CopyPaste

  /** A captured media stream, observed through its track list. */
  datatype Stream = Stream(tracks: seq<string>)

  /** `stream`, whether `sc` exists, and the candidate buffer with the
      output field. */
  datatype Server = Server(stream: Option<Stream>, hasPc: bool, buf: Buffer)

  datatype Reaction = Reaction(server: Server, calls: seq<PcCall>)

  const Initial := Server(None, false, Empty)

  /** The connection exists exactly when a stream was captured. */
  predicate Valid(s: Server)
  {
    s.stream.Some? <==> s.hasPc
  }

  /** `maybeCreateStream`. `canCapture` says whether the audio element offers
      either capture function and `captured` is the stream it would return.
      Only the first successful capture starts the call, which creates the
      connection and adds every captured track; later attempts do nothing. */
  function MaybeCreateStream(s: Server, canCapture: bool, captured: Stream): (r: Reaction)
    ensures s.stream.Some? || !canCapture ==> r == Reaction(s, [])
    ensures s.stream.None? && canCapture ==>
      r.server == s.(stream := Some(captured), hasPc := true) &&
      |r.calls| == 1 + |captured.tracks| && r.calls[0] == NewConnection &&
      forall i :: 0 <= i < |captured.tracks| ==> r.calls[i + 1] == AddTrack(captured.tracks[i])
  {
    if s.stream.Some? || !canCapture then Reaction(s, [])
    else
      var tracks := seq(|captured.tracks|, i requires 0 <= i < |captured.tracks| => AddTrack(captured.tracks[i]));
      Reaction(s.(stream := Some(captured), hasPc := true), [NewConnection] + tracks)
  }

  /** `onIceCandidate`. */
  function OnIceCandidate(s: Server, cand: Option<Candidate>): (r: Server)
    ensures r.buf.candidates == s.buf.candidates + [cand]
    ensures r.buf.output == s.buf.output && r.stream == s.stream && r.hasPc == s.hasPc
  {
    s.(buf := Collect(s.buf, cand))
  }

  /** `onCreateAnswerSuccess`: the answer becomes the local description and
      is shown in the output field. */
  function OnAnswerCreated(s: Server, desc: Body): (r: Reaction)
    ensures r.calls == [SetLocalDescription(desc)]
    ensures r.server.buf.output == DescriptionText(desc)
    ensures r.server.buf.candidates == s.buf.candidates
    ensures r.server.stream == s.stream && r.server.hasPc == s.hasPc
  {
    Reaction(s.(buf := s.buf.(output := DescriptionText(desc))), [SetLocalDescription(desc)])
  }

  /** `onSDPEntered`. An input that does not decode throws before anything
      changes. Otherwise the output field is cleared first. A list adds each
      item as a remote candidate and then flushes the buffer, except that
      without a connection the first item throws and nothing more happens.
      An offer is applied as the remote description and answered (without a
      connection this throws). Anything else, including an answer, is only
      logged. */
  function OnSDPEntered(s: Server, entered: Option<Entered>): (r: Reaction)
    ensures entered.None? ==> r == Reaction(s, [])
    ensures r.server.stream == s.stream && r.server.hasPc == s.hasPc
    ensures entered.Some? && entered.value.EnteredList? && (s.hasPc || entered.value.items == []) ==>
      r.calls == AddCandidates(entered.value.items) &&
      r.server.buf == Flush(s.buf.(output := Blank))
    ensures entered.Some? && entered.value.EnteredList? && !s.hasPc && entered.value.items != [] ==>
      r == Reaction(s.(buf := s.buf.(output := Blank)), [])
    ensures entered.Some? && entered.value.EnteredObject? ==>
      r.server.buf == s.buf.(output := Blank)
    ensures entered.Some? && entered.value.EnteredObject? ==>
      (r.calls != [] <==> s.hasPc && TypeProperty(entered.value.value) == Some("offer"))
    ensures r.calls != [] && entered.Some? && entered.value.EnteredObject? ==>
      r.calls == [SetRemoteDescription(entered.value.value), CreateAnswer]
  {
    match entered
    case None => Reaction(s, [])
    case Some(e) =>
      var cleared := s.(buf := s.buf.(output := Blank));
      match e
      case EnteredList(items) =>
        if !s.hasPc && items != [] then Reaction(cleared, [])
        else Reaction(cleared.(buf := Flush(cleared.buf)), AddCandidates(items))
      case EnteredObject(v) =>
        if TypeProperty(v) == Some("offer") && s.hasPc then
          Reaction(cleared, [SetRemoteDescription(v), CreateAnswer])
        else Reaction(cleared, [])
  }

  /** Number of connections created by a run of calls. */
  function Connections(calls: seq<PcCall>): nat
  {
    if calls == [] then 0
    else Connections(calls[..|calls| - 1]) + (if calls[|calls| - 1] == NewConnection then 1 else 0)
  }

  lemma {:induction false} ConnectionsAppend(a: seq<PcCall>, b: seq<PcCall>)
    ensures Connections(a + b) == Connections(a) + Connections(b)
  {
    if b != [] {
      var b' := b[..|b| - 1];
      assert (a + b)[..|a + b| - 1] == a + b';
      ConnectionsAppend(a, b');
    } else {
      assert a + b == a;
    }
  }

  /** `canplay` events (or the initial ready-state check), each with whether
      capture is available and the stream it would yield. */
  datatype CanPlay = CanPlay(canCapture: bool, captured: Stream)

  /** The server and every call made, after a run of `canplay` events. */
  function Play(s: Server, evs: seq<CanPlay>): Reaction
  {
    if evs == [] then Reaction(s, [])
    else
      var before := Play(s, evs[..|evs| - 1]);
      var e := evs[|evs| - 1];
      var step := MaybeCreateStream(before.server, e.canCapture, e.captured);
      Reaction(step.server, before.calls + step.calls)
  }

  /** The once-guard: however many `canplay` events arrive, a connection is
      created at most once, and exactly once when a stream was captured. */
  lemma {:induction false} CallStartsOnce(s: Server, evs: seq<CanPlay>)
    requires Valid(s)
    ensures Valid(Play(s, evs).server)
    ensures Connections(Play(s, evs).calls) ==
      (if s.stream.None? && Play(s, evs).server.stream.Some? then 1 else 0)
    ensures s.stream.Some? ==> Play(s, evs).server.stream == s.stream
  {
    if evs != [] {
      var before := Play(s, evs[..|evs| - 1]);
      CallStartsOnce(s, evs[..|evs| - 1]);
      var e := evs[|evs| - 1];
      var step := MaybeCreateStream(before.server, e.canCapture, e.captured);
      ConnectionsAppend(before.calls, step.calls);
      if before.server.stream.None? && e.canCapture {
        var tracks := step.calls[1..];
        assert step.calls == [NewConnection] + tracks;
        ConnectionsAppend([NewConnection], tracks);
        assert [NewConnection][..0] == [];
        NoConnectionAmongTracks(tracks);
      }
    }
  }

  lemma {:induction false} NoConnectionAmongTracks(calls: seq<PcCall>)
    requires forall i :: 0 <= i < |calls| ==> calls[i].AddTrack?
    ensures Connections(calls) == 0
  {
    if calls != [] {
      NoConnectionAmongTracks(calls[..|calls| - 1]);
    }
  }

  /** With a captured stream, a pasted offer is applied and answered, and the
      answer then shows up in the output field. */
  lemma AnswersPastedOffer(s: Server, offer: Body, answer: Body)
    requires Valid(s) && s.stream.Some? && TypeProperty(offer) == Some("offer")
    ensures OnSDPEntered(s, Some(EnteredObject(offer))).calls == [SetRemoteDescription(offer), CreateAnswer]
    ensures var t := OnSDPEntered(s, Some(EnteredObject(offer))).server;
            OnAnswerCreated(t, answer).server.buf.output == DescriptionText(answer)
  {
  }
}

/** The offering page (js/client.js): creates its connection on load, shows
    its offer, and applies a pasted answer or candidate batch. */
module ManualClient {
  import opened Common
  import opened CopyPaste

  /** `cc` exists from page load on; the page's state is its buffer. */
  datatype Client = Client(buf: Buffer)

  datatype Reaction = Reaction(client: Client, calls: seq<PcCall>)

  /** `call()` at page load: a connection that asks to receive audio and no
      video. */
  function Call(): (r: Reaction)
    ensures r.client.buf == Empty
    ensures |r.calls| == 2 && r.calls[0] == NewConnection && r.calls[1].CreateOffer?
    ensures r.calls[1].offerToReceiveAudio && !r.calls[1].offerToReceiveVideo
  {
    Reaction(Client(Empty), [NewConnection, CreateOffer(true, false)])
  }

  /** `onCreateOfferSuccess`: the offer becomes the local description and is
      shown in the output field. */
  function OnOfferCreated(c: Client, desc: Body): (r: Reaction)
    ensures r.calls == [SetLocalDescription(desc)]
    ensures r.client.buf == c.buf.(output := DescriptionText(desc))
  {
    Reaction(Client(c.buf.(output := DescriptionText(desc))), [SetLocalDescription(desc)])
  }

  /** `onIceCandidate`. */
  function OnIceCandidate(c: Client, cand: Option<Candidate>): (r: Client)
    ensures r.buf.candidates == c.buf.candidates + [cand]
    ensures r.buf.output == c.buf.output
  {
    Client(Collect(c.buf, cand))
  }

  /** `onSDPReceived`: applies the answer, then flushes the gathered
      candidates into the output field. */
  function OnSDPReceived(c: Client, desc: Body): (r: Reaction)
    ensures r.calls == [SetRemoteDescription(desc)]
    ensures r.client.buf.candidates == []
    ensures |c.buf.candidates| > 0 ==> r.client.buf.output == CandidatesText(c.buf.candidates)
    ensures |c.buf.candidates| == 0 ==> r.client.buf == c.buf
  {
    Reaction(Client(Flush(c.buf)), [SetRemoteDescription(desc)])
  }

  /** True for the description types the offering page accepts. */
  predicate IsAnswerType(t: Option<string>)
  {
    t == Some("answer") || t == Some("pranswer")
  }

  /** `onSDPEntered`. An input that does not decode throws before anything
      changes. Otherwise the output field is cleared first; a list adds each
      item as a remote candidate and flushes the buffer; an answer or
      provisional answer is applied and flushes the buffer; anything else,
      an offer included, is only logged. */
  function OnSDPEntered(c: Client, entered: Option<Entered>): (r: Reaction)
    ensures entered.None? ==> r == Reaction(c, [])
    ensures entered.Some? && entered.value.EnteredList? ==>
      r.calls == AddCandidates(entered.value.items) &&
      r.client.buf == Flush(c.buf.(output := Blank))
    ensures entered.Some? && entered.value.EnteredObject? ==>
      (r.calls != [] <==> IsAnswerType(TypeProperty(entered.value.value)))
    ensures entered.Some? && entered.value.EnteredObject? && IsAnswerType(TypeProperty(entered.value.value)) ==>
      r.calls == [SetRemoteDescription(entered.value.value)] &&
      r.client.buf == Flush(c.buf.(output := Blank))
    ensures entered.Some? && entered.value.EnteredObject? && !IsAnswerType(TypeProperty(entered.value.value)) ==>
      r.client.buf == c.buf.(output := Blank)
  {
    match entered
    case None => Reaction(c, [])
    case Some(e) =>
      var cleared := Client(c.buf.(output := Blank));
      match e
      case EnteredList(items) =>
        Reaction(Client(Flush(cleared.buf)), AddCandidates(items))
      case EnteredObject(v) =>
        if IsAnswerType(TypeProperty(v)) then OnSDPReceived(cleared, v)
        else Reaction(cleared, [])
  }
}

/** The manual exchange between the two pages. */
module ManualExchange {
  import opened Common
  import opened CopyPaste
  import ManualServer
  import ManualClient

  /** Candidates the offering page gathered before the answer arrived are
      shown once the answer is pasted, and pasting that output into the
      answering page adds each of them there, in gathering order, with the
      end-of-gathering null passed on as null. */
  lemma GatheredCandidatesCrossOver(c: ManualClient.Client, cands: seq<Option<Candidate>>,
                                    answer: Body, s: ManualServer.Server)
    requires c.buf.candidates == [] && cands != []
    requires TypeProperty(answer) == Some("answer") && s.hasPc
    ensures var gathered := ManualClient.Client(CollectAll(c.buf, cands));
            var r := ManualClient.OnSDPEntered(gathered, Some(EnteredObject(answer)));
            r.client.buf == Buffer([], CandidatesText(cands)) &&
            var calls := ManualServer.OnSDPEntered(s, Paste(r.client.buf.output)).calls;
            |calls| == |cands| &&
            forall i :: 0 <= i < |cands| ==> calls[i] == AddIceCandidate(AsBody(cands[i]))
  {
    CollectThenFlush(c.buf, cands);
    CollectThenFlush(c.buf.(output := Blank), cands);
    assert c.buf.candidates + cands == cands;
  }

  /** One round of the manual exchange. The offering page starts a
      receive-only call and shows its offer once created; pasting that output
      into the answering page, once its call has started, applies the offer
      and asks for an answer. The answer it shows, pasted back into the
      offering page before any candidate was gathered there, is applied as
      the remote description and leaves the output field blank. */
  lemma OfferAnsweredAcrossPages(s: ManualServer.Server, offer: Body, answer: Body)
    requires ManualServer.Valid(s) && s.stream.Some?
    requires TypeProperty(offer) == Some("offer") && TypeProperty(answer) == Some("answer")
    ensures var call := ManualClient.Call();
            var offered := ManualClient.OnOfferCreated(call.client, offer);
            && call.calls == [NewConnection, CreateOffer(true, false)]
            && offered.calls == [SetLocalDescription(offer)]
            && var entered := ManualServer.OnSDPEntered(s, Paste(offered.client.buf.output));
               && entered.calls == [SetRemoteDescription(offer), CreateAnswer]
               && var answered := ManualServer.OnAnswerCreated(entered.server, answer);
                  && answered.calls == [SetLocalDescription(answer)]
                  && var back := ManualClient.OnSDPEntered(offered.client, Paste(answered.server.buf.output));
                     && back.calls == [SetRemoteDescription(answer)]
                     && back.client.buf == Buffer([], Blank)
  {
  }

  /** The offering page rejects an offer pasted back into it, and the
      answering page never answers an answer. */
  lemma WrongDirectionIgnored(c: ManualClient.Client, s: ManualServer.Server, d: Body)
    requires TypeProperty(d) == Some("offer")
    ensures ManualClient.OnSDPEntered(c, Some(EnteredObject(d))).calls == []
    ensures var a := d.(desc := d.desc.(kind := Some("answer")));
            ManualServer.OnSDPEntered(s, Some(EnteredObject(a))).calls == []
  {
  }
}

=== FILE: pcm.dfy ===
/** `toByteArray` (pion/main.go): packs signed 16-bit PCM samples into a
    byte slice, little-endian, two bytes per sample. The Go function writes
    into the caller's slice; here the slice after the call is returned. */
module Pcm {
  import opened Common

  newtype Int16 = x: int | -0x8000 <= x < 0x8000
  newtype Byte = x: int | 0 <= x < 0x100

  /** `fmt.Errorf("invalid buffer sizes: buf=%d bytes=%d", ...)`. */
  datatype SizeError = InvalidBufferSizes(buf: nat, bytes: nat)

  /** `uint16(x)`: the 16-bit two's complement bit pattern of a sample. */
  function Uint16(x: Int16): (u: int)
    ensures 0 <= u < 0x10000
    ensures u == x as int % 0x10000
  {
    if x < 0 then x as int + 0x10000 else x as int
  }

  /** The byte `PutUint16` stores first. */
  function Low(x: Int16): Byte
  {
    (Uint16(x) % 0x100) as Byte
  }

  /** The byte `PutUint16` stores second. */
  function High(x: Int16): Byte
  {
    (Uint16(x) / 0x100) as Byte
  }

  /** Reads two bytes back as a signed little-endian sample. */
  function DecodeSample(lo: Byte, hi: Byte): Int16
  {
    var u := hi as int * 0x100 + lo as int;
    (if u >= 0x8000 then u - 0x10000 else u) as Int16
  }

  /** The byte pair of every sample decodes back to that sample. */
  lemma SampleRoundTrip(x: Int16)
    ensures DecodeSample(Low(x), High(x)) == x
  {
  }

  /** True when `out` holds the little-endian encoding of `buf` in its first
      `2*|buf|` bytes. */
  predicate PacksLittleEndian(buf: seq<Int16>, out: seq<Byte>)
    requires 2 * |buf| <= |out|
  {
    forall i :: 0 <= i < |buf| ==> out[2 * i] == Low(buf[i]) && out[2 * i + 1] == High(buf[i])
  }

  /** `toByteArray`. When the slice is too short nothing is written and an
      error is returned with count 0; otherwise each sample fills two bytes,
      low byte first, the count is `2*|buf|`, and the bytes past it keep their
      old values. */
  method ToByteArray(buf: seq<Int16>, bytes: seq<Byte>) returns (n: int, err: Option<SizeError>, out: seq<Byte>)
    ensures 2 * |buf| > |bytes| ==>
      n == 0 && err == Some(InvalidBufferSizes(|buf|, |bytes|)) && out == bytes
    ensures 2 * |buf| <= |bytes| ==> n == 2 * |buf| && err.None?
    ensures |out| == |bytes|
    ensures 2 * |buf| <= |bytes| ==> PacksLittleEndian(buf, out) && out[n..] == bytes[n..]
    ensures 2 * |buf| <= |bytes| ==>
      forall i :: 0 <= i < |buf| ==> DecodeSample(out[2 * i], out[2 * i + 1]) == buf[i]
  {
    if 2 * |buf| > |bytes| {
      return 0, Some(InvalidBufferSizes(|buf|, |bytes|)), bytes;
    }
    out := bytes;
    var bi := 0;
    var i := 0;
    while i < |buf|
      invariant 0 <= i <= |buf| && bi == 2 * i
      invariant |out| == |bytes|
      invariant forall j :: 0 <= j < i ==> out[2 * j] == Low(buf[j]) && out[2 * j + 1] == High(buf[j])
      invariant out[bi..] == bytes[bi..]
    {
      out := out[bi := Low(buf[i])][bi + 1 := High(buf[i])];
      bi := bi + 2;
      i := i + 1;
    }
    n, err := bi, None;
    forall i | 0 <= i < |buf|
      ensures DecodeSample(out[2 * i], out[2 * i + 1]) == buf[i]
    {
      SampleRoundTrip(buf[i]);
    }
  }
}

=== FILE: relay.dfy ===
/** The relay (server.js): a registry of connected sockets, the elected
    sender's id, and the `connection`, `disconnect`, `syn` and `sig`
    handlers, each a transition from a state to a new state plus the
    events the relay emits. */
module Relay {
  import opened Common

  type SocketId = string

  /** One entry of `clients`. The socket object itself is represented by the
      key; `since` is the connection time supplied by the caller's clock. */
  datatype Client = Client(since: int, isSender: bool)

  datatype State = State(clients: map<SocketId, Client>, senderId: Option<SocketId>)

  /** The `syn` payload `{isSender, msgId}`. */
  datatype SynEvent = SynEvent(isSender: bool, msgId: Option<int>)

  /** What the relay emits on a socket. */
  datatype Outbound =
    | SynAck(success: bool, senderId: Option<SocketId>, reason: Option<string>, msgId: Option<int>)
    | SigAck(success: bool, reason: Option<string>, msgId: Option<int>)
    | Forward(sig: Sig)

  datatype Emit = Emit(target: SocketId, event: Outbound)

  datatype Step = Step(state: State, emits: seq<Emit>)

  /** How the `sig` handler ends: it runs to completion with a step, or a
      statement in it throws. Nothing in the handler catches the error, and
      the relay installs no handler for uncaught errors; what the runtime
      does after such an error is outside this model. */
  datatype SigOutcome = Handled(step: Step) | Threw

  const NotRegistered := "not registered"
  const NotSyncd := "not sync'd"
  const ToMissing := "\"to\" field is missing"
  const PeerNotFound := "peer not found"

  /** The relay before any socket has connected. */
  const Initial := State(map[], None)

  /** `connection`: registers the socket with an unknown role. */
  function OnConnection(s: State, id: SocketId, now: int): (r: State)
    ensures r.clients.Keys == s.clients.Keys + {id}
    ensures r.clients[id] == Client(now, false)
    ensures forall k :: k in s.clients && k != id ==> r.clients[k] == s.clients[k]
    ensures r.senderId == s.senderId
  {
    s.(clients := s.clients[id := Client(now, false)])
  }

  /** `disconnect`: forgets the socket and clears the sender id whenever the
      departing record claimed to be a sender, whoever `senderId` names.
      For a socket without a record, reading its `isSender` throws before
      anything changes. */
  function OnDisconnect(s: State, id: SocketId): (r: State)
    ensures id in s.clients ==> r.clients.Keys == s.clients.Keys - {id}
    ensures id in s.clients && s.clients[id].isSender ==> r.senderId == None
    ensures id in s.clients && !s.clients[id].isSender ==> r.senderId == s.senderId
    ensures forall k :: k in r.clients ==> k in s.clients && r.clients[k] == s.clients[k]
    ensures id !in s.clients ==> r == s
  {
    if id !in s.clients then s
    else
      var sender := if s.clients[id].isSender then None else s.senderId;
      State(s.clients - {id}, sender)
  }

  /** `syn`: records the socket's role; a sender syn takes over `senderId`
      (last syn wins). Always answers with one `syn-ack` to the socket. */
  function OnSyn(s: State, id: SocketId, ev: SynEvent): (r: Step)
    ensures r.state.clients.Keys == s.clients.Keys
    ensures id !in s.clients ==>
      r.state == s && r.emits == [Emit(id, SynAck(false, None, Some(NotRegistered), ev.msgId))]
    ensures id in s.clients ==> r.state.clients[id].isSender == ev.isSender
    ensures id in s.clients ==> r.state.clients[id].since == s.clients[id].since
    ensures forall k :: k in s.clients && k != id ==> r.state.clients[k] == s.clients[k]
    ensures id in s.clients && ev.isSender ==> r.state.senderId == Some(id)
    ensures !(id in s.clients && ev.isSender) ==> r.state.senderId == s.senderId
    ensures id in s.clients ==>
      r.emits == [Emit(id, SynAck(true, r.state.senderId, None, ev.msgId))]
  {
    if id !in s.clients then
      Step(s, [Emit(id, SynAck(false, None, Some(NotRegistered), ev.msgId))])
    else
      var c := s.clients[id].(isSender := ev.isSender);
      var sender := if c.isSender then Some(id) else s.senderId;
      var s' := State(s.clients[id := c], sender);
      Step(s', [Emit(id, SynAck(true, s'.senderId, None, ev.msgId))])
  }

  /** Names that every plain JavaScript object inherits from
      `Object.prototype`. `clients` is such an object, so looking one of these
      names up finds a member even when no socket registered under it. */
  const InheritedNames: set<string> := {
    "constructor", "__proto__", "hasOwnProperty", "isPrototypeOf",
    "propertyIsEnumerable", "toLocaleString", "toString", "valueOf",
    "__defineGetter__", "__defineSetter__", "__lookupGetter__", "__lookupSetter__"}

  /** `clients[name]` is truthy: an own record, or an inherited member. */
  predicate Found(s: State, name: string)
  {
    name in s.clients || name in InheritedNames
  }

  /** The failure reason of the `sig` validation, checked in source order,
      or None when validation passes. The peer check is the truthiness of
      `clients[ev.to]`, which an inherited name passes. */
  function SigRejection(s: State, id: SocketId, ev: Sig): Option<string>
  {
    if id !in s.clients then Some(NotSyncd)
    else if !Truthy(ev.to) then Some(ToMissing)
    else if !Found(s, ev.to.value) then Some(PeerNotFound)
    else None
  }

  /** True when a `sig` from `id` reaches its addressee. */
  predicate Deliverable(s: State, id: SocketId, ev: Sig)
  {
    id in s.clients && Truthy(ev.to) && ev.to.value in s.clients
  }

  /** True when validation passes on an inherited name: the member found has
      no `socket`, so `peer.socket.emit` throws a TypeError before anything
      is emitted. */
  predicate ThrowsOnSig(s: State, id: SocketId, ev: Sig)
  {
    id in s.clients && Truthy(ev.to) && ev.to.value !in s.clients && ev.to.value in InheritedNames
  }

  /** `sig`: validates and forwards with a relay-stamped `from`. When it
      completes, the relay keeps its state and emits exactly one event,
      answering the sender itself only on failure. When the addressee is an
      inherited name, the handler throws instead. */
  function OnSig(s: State, id: SocketId, ev: Sig): (r: SigOutcome)
    ensures r.Threw? <==> ThrowsOnSig(s, id, ev)
    ensures r.Handled? ==> r.step.state == s && |r.step.emits| == 1
    ensures r.Handled? ==> (r.step.emits[0].event.Forward? <==> Deliverable(s, id, ev))
    ensures Deliverable(s, id, ev) ==>
      r == Handled(Step(s, [Emit(ev.to.value, Forward(ev.(from := Some(id))))]))
    ensures !Deliverable(s, id, ev) && !ThrowsOnSig(s, id, ev) ==>
      r.Handled? && r.step.emits[0].target == id && r.step.emits[0].event.SigAck? &&
      !r.step.emits[0].event.success && r.step.emits[0].event.msgId == ev.msgId
    ensures id !in s.clients ==> r == Handled(Step(s, [Emit(id, SigAck(false, Some(NotSyncd), ev.msgId))]))
    ensures id in s.clients && !Truthy(ev.to) ==>
      r == Handled(Step(s, [Emit(id, SigAck(false, Some(ToMissing), ev.msgId))]))
    ensures id in s.clients && Truthy(ev.to) && !Found(s, ev.to.value) ==>
      r == Handled(Step(s, [Emit(id, SigAck(false, Some(PeerNotFound), ev.msgId))]))
  {
    match SigRejection(s, id, ev)
    case Some(reason) => Handled(Step(s, [Emit(id, SigAck(false, Some(reason), ev.msgId))]))
    case None =>
      if ev.to.value in s.clients then Handled(Step(s, [Emit(ev.to.value, Forward(ev.(from := Some(id))))]))
      else Threw
  }

  /** The `sig` handler with the peer looked up among the registry's own
      records only, so that an inherited name is answered like any other
      unknown peer. */
  function OnSigChecked(s: State, id: SocketId, ev: Sig): (r: Step)
    ensures r.state == s
    ensures |r.emits| == 1
    ensures r.emits[0].event.Forward? <==> Deliverable(s, id, ev)
    ensures Deliverable(s, id, ev) ==>
      r.emits[0] == Emit(ev.to.value, Forward(ev.(from := Some(id))))
    ensures !Deliverable(s, id, ev) ==>
      r.emits[0].target == id && r.emits[0].event.SigAck? &&
      !r.emits[0].event.success && r.emits[0].event.msgId == ev.msgId
    ensures id in s.clients && Truthy(ev.to) && ev.to.value !in s.clients ==>
      r.emits[0].event == SigAck(false, Some(PeerNotFound), ev.msgId)
  {
    if id !in s.clients then Step(s, [Emit(id, SigAck(false, Some(NotSyncd), ev.msgId))])
    else if !Truthy(ev.to) then Step(s, [Emit(id, SigAck(false, Some(ToMissing), ev.msgId))])
    else if ev.to.value !in s.clients then Step(s, [Emit(id, SigAck(false, Some(PeerNotFound), ev.msgId))])
    else Step(s, [Emit(ev.to.value, Forward(ev.(from := Some(id))))])
  }

  /** The two handlers differ exactly on the inherited names: everywhere else
      the handler as written completes just like the checked one. */
  lemma CheckedDiffersOnlyOnInherited(s: State, id: SocketId, ev: Sig)
    ensures ThrowsOnSig(s, id, ev) ==> OnSig(s, id, ev) == Threw
    ensures !ThrowsOnSig(s, id, ev) ==> OnSig(s, id, ev) == Handled(OnSigChecked(s, id, ev))
  {
  }

  /** A registered socket that addresses "toString" makes the handler as
      written throw, where the checked handler answers "peer not found". */
  lemma InheritedPeerThrows()
    ensures var s := OnConnection(Initial, "a", 0);
            var ev := Sig("candidate", Some("toString"), None, NullBody, Some(1), None);
            OnSig(s, "a", ev) == Threw
            && OnSigChecked(s, "a", ev).emits == [Emit("a", SigAck(false, Some(PeerNotFound), Some(1)))]
  {
    var s := OnConnection(Initial, "a", 0);
    assert "toString" != "a" by { assert "toString"[0] != "a"[0]; }
    assert "toString" !in s.clients;
    assert "toString" in InheritedNames;
  }

  /** Every event the relay reacts to. */
  datatype Event =
    | Connected(id: SocketId, now: int)
    | Disconnected(id: SocketId)
    | SynReceived(id: SocketId, syn: SynEvent)
    | SigReceived(id: SocketId, sig: Sig)

  /** One event, with `sig` handled by the checked handler. Wherever the
      handler as written completes, it leaves the state as it is too, so a
      trace describes the relay up to its first throw. */
  function Apply(s: State, e: Event): Step
  {
    match e
    case Connected(id, now) => Step(OnConnection(s, id, now), [])
    case Disconnected(id) => Step(OnDisconnect(s, id), [])
    case SynReceived(id, syn) => OnSyn(s, id, syn)
    case SigReceived(id, sig) => OnSigChecked(s, id, sig)
  }

  /** The relay's state after handling `es` in order, starting from `s`. */
  function Final(s: State, es: seq<Event>): State
  {
    if es == [] then s else Apply(Final(s, es[..|es| - 1]), es[|es| - 1]).state
  }

  /** An independent account of which sockets are registered: connections
      add, disconnections remove, nothing else matters. */
  function RegisteredAfter(keys: set<SocketId>, es: seq<Event>): set<SocketId>
  {
    if es == [] then keys
    else
      var before := RegisteredAfter(keys, es[..|es| - 1]);
      match es[|es| - 1]
      case Connected(id, _) => before + {id}
      case Disconnected(id) => before - {id}
      case _ => before
  }

  /** The registry's key set is decided by connections and disconnections
      alone; `syn` and `sig` never add or remove a record. */
  lemma {:induction false} RegistryFollowsConnections(s: State, es: seq<Event>)
    ensures Final(s, es).clients.Keys == RegisteredAfter(s.clients.Keys, es)
  {
    if es != [] {
      RegistryFollowsConnections(s, es[..|es| - 1]);
    }
  }

  /** True for an event that could move `senderId`: any disconnection or a syn
      that claims the sender role. */
  predicate MayMoveSender(e: Event)
  {
    e.Disconnected? || (e.SynReceived? && e.syn.isSender)
  }

  /** Last syn wins: once a registered socket has synced as sender, it stays
      the sender id as long as nobody else claims the role and nobody leaves. */
  lemma {:induction false} LastSenderSynWins(s: State, pre: seq<Event>, x: SocketId, syn: SynEvent, post: seq<Event>)
    requires x in Final(s, pre).clients && syn.isSender
    requires forall i :: 0 <= i < |post| ==> !MayMoveSender(post[i])
    ensures Final(s, pre + [SynReceived(x, syn)] + post).senderId == Some(x)
  {
    var es := pre + [SynReceived(x, syn)] + post;
    if post == [] {
      assert es[..|es| - 1] == pre;
    } else {
      var post' := post[..|post| - 1];
      assert es[..|es| - 1] == pre + [SynReceived(x, syn)] + post';
      assert !MayMoveSender(post[|post| - 1]);
      LastSenderSynWins(s, pre, x, syn, post');
    }
  }

  /** The trace shared by the two scenarios below: "a" and "b" connect and
      both sync as sender, "b" last. */
  function TwoSenderSyns(): seq<Event>
  {
    [Connected("a", 0), Connected("b", 1),
     SynReceived("a", SynEvent(true, Some(1))),
     SynReceived("b", SynEvent(true, Some(1)))]
  }

  /** A socket that supersedes another sender leaves the earlier record's
      `isSender` set, so the registry can hold two records claiming the role. */
  lemma TwoRecordsClaimSender()
    ensures var s := Final(Initial, TwoSenderSyns());
            s.senderId == Some("b") && "a" in s.clients && "b" in s.clients &&
            s.clients["a"].isSender && s.clients["b"].isSender
  {
    var es := TwoSenderSyns();
    assert "a" != "b" by { assert "a"[0] != "b"[0]; }
    assert Final(Initial, es[..0]) == Initial;
    var s1 := OnConnection(Initial, "a", 0);
    assert es[..1][..0] == es[..0];
    assert Final(Initial, es[..1]) == s1;
    var s2 := OnConnection(s1, "b", 1);
    assert es[..2][..1] == es[..1];
    assert Final(Initial, es[..2]) == s2;
    var s3 := OnSyn(s2, "a", SynEvent(true, Some(1))).state;
    assert es[..3][..2] == es[..2];
    assert Final(Initial, es[..3]) == s3;
    assert s3.clients["a"].isSender;
    assert es[..3] == es[..|es| - 1];
  }

  /** When the superseded sender leaves, `senderId` is cleared although the
      current sender is still connected. */
  lemma SupersededSenderLeavingClearsSender()
    ensures var s := Final(Initial, TwoSenderSyns() + [Disconnected("a")]);
            s.senderId == None && "b" in s.clients && s.clients["b"].isSender
  {
    var es := TwoSenderSyns() + [Disconnected("a")];
    assert "a" != "b" by { assert "a"[0] != "b"[0]; }
    TwoRecordsClaimSender();
    assert es[..|es| - 1] == TwoSenderSyns();
    assert Final(Initial, es) == OnDisconnect(Final(Initial, TwoSenderSyns()), "a");
  }

  /** A sender that syncs again as a receiver keeps `senderId` pointing at
      itself, because a receiver syn never touches it; when it then leaves,
      its record no longer claims the role, so `senderId` survives and names
      a socket that is gone. */
  lemma ResyncedSenderLeavingKeepsStaleSender()
    ensures var es := [Connected("a", 0), SynReceived("a", SynEvent(true, Some(1))),
                       SynReceived("a", SynEvent(false, Some(2))), Disconnected("a")];
            var s := Final(Initial, es);
            s.senderId == Some("a") && "a" !in s.clients
  {
    var es := [Connected("a", 0), SynReceived("a", SynEvent(true, Some(1))),
               SynReceived("a", SynEvent(false, Some(2))), Disconnected("a")];
    assert Final(Initial, es[..0]) == Initial;
    var s1 := OnConnection(Initial, "a", 0);
    assert es[..1][..0] == es[..0];
    assert Final(Initial, es[..1]) == s1;
    var s2 := OnSyn(s1, "a", SynEvent(true, Some(1))).state;
    assert es[..2][..1] == es[..1];
    assert Final(Initial, es[..2]) == s2;
    var s3 := OnSyn(s2, "a", SynEvent(false, Some(2))).state;
    assert es[..3][..2] == es[..2];
    assert Final(Initial, es[..3]) == s3;
    assert es[..3] == es[..|es| - 1];
    assert s3.senderId == Some("a") && !s3.clients["a"].isSender;
  }

  /** A `sig` addressed to a socket that is not registered fails with
      "peer not found"; once that socket connects, the same message is
      forwarded to it with the sender's id stamped as `from`. */
  lemma PeerBecomesDeliverable(s: State, id: SocketId, peer: SocketId, now: int, ev: Sig)
    requires id in s.clients && peer !in s.clients && ev.to == Some(peer) && peer != ""
    requires peer !in InheritedNames
    ensures OnSig(s, id, ev) == Handled(Step(s, [Emit(id, SigAck(false, Some(PeerNotFound), ev.msgId))]))
    ensures var s' := OnConnection(s, peer, now);
            OnSig(s', id, ev) == Handled(Step(s', [Emit(peer, Forward(ev.(from := Some(id))))]))
  {
  }

  /** A peer that disconnected one step earlier is no longer reachable. */
  lemma DisconnectedPeerNotFound(s: State, id: SocketId, peer: SocketId, ev: Sig)
    requires id in s.clients && peer in s.clients && peer != id && ev.to == Some(peer) && peer != ""
    requires peer !in InheritedNames
    ensures var s' := OnDisconnect(s, peer);
            OnSig(s', id, ev) == Handled(Step(s', [Emit(id, SigAck(false, Some(PeerNotFound), ev.msgId))]))
  {
  }
}
